=== FILE: README.md ===
# RPG Maker launcher core, modelled in Dafny

The launcher keeps a library folder of RPG Maker MV/MZ and TyranoBuilder games.
It scans the folder and lists every game with its title, product code and icon.
It can launch a game inside its own window, and it can "slim" a game: it moves the bundled NW.js
runtime files to the recycle bin.

This project models the logic behind those features:

- `getGameMetadata` decides whether a folder is a game. It classifies the engine and picks the entry
  page. It resolves the title from the engine's configuration, then `package.json`, then the folder
  name. It also extracts the DLsite `RJ` code, finds the icon and decides whether the game is already
  slim.
- `scanLibrary` scans flat, one level deep. `scanRecursively` scans up to three levels deep and stops
  descending at the first folder that is a game.
- `loadLibrary` shows the cached list for the library, scans again, then shows the result and caches it.
  Settings, the library path and start-up all lead to this path.
- `applyFilters` applies the search box and the slim/full filter to the game cards.
- `launchGame` resolves the window size, the `file:///` URL of the entry page and the `NODE_PATH` update.
- `confirmAndCleanGame` builds the removal manifest, recycles each present item through a PowerShell
  command with quotes escaped, counts the results and reports one of three outcomes.
- `checkAndAddGame` in `verify_logic.js` is the older detector. It runs on three fixture folders.

## How the model is laid out

- `common.dfy`: `Option` and `Result`.
- `text.dfy`: the JavaScript string operations the code uses. These are `trim` with the full
  white-space set, ASCII case mapping, `includes`, `startsWith` and `endsWith`, and `split`/`join`
  with their round trips.
- `snapshot.dfy`: a game folder as a value. It holds the set of relative paths that exist, the parsed
  `System.json` files, the readable `Config.tjs` texts and the parsed `package.json`. It also holds the
  directory tree that the scanners walk, and `path.join` for Windows.
- `tyrano_config.dfy`: the regular expression `;System\.title\s*=\s*"(.*?)";`.
- `product_code.dfy`: removing `[RJ<digits>]` tags, and extracting the first `RJ<digits>` code.
- `metadata.dfy` and `metadata_facts.dfy`: `getGameMetadata`. It is a specification function
  `GameMetadata`, plus the method `GetGameMetadata` that follows the source statement by statement and
  is proved equal to it.
- `scanner.dfy`: both scans. Each is a specification function plus a loop method proved equal to it.
- `library.dfy`: sorting by title, the cache key, and the `Launcher` class. The class holds the
  launcher's mutable state: settings, library path, cache, grid, status line and empty-state panel.
- `settings.dfy`: JavaScript `parseInt`, and the `|| 816` / `|| 624` fallbacks.
- `filter.dfy`: card attributes, and the filter loop over the cards' `hidden` flags.
- `launch.dfy`: window size, entry URL and `NODE_PATH`.
- `cleanup.dfy`: the manifest, PowerShell quoting, and the `GameFolder` class whose entries the
  recycling removes.
- `legacy.dfy`: `checkAndAddGame`, its fixtures, and how it compares with `getGameMetadata`.

The file system is a parameter: a `Folder` or `Node` value stands for what `existsSync`, `readdir`
and `readFileSync` would see. The recycle command is an oracle `recycle(path, isDirectory)` that says
whether the PowerShell call succeeded.

## Model

| member | source | states |
|---|---|---|
| Text.Trim | main.js:367 | the input is the trimmed string with a run of white space before it and a run after it; the trimmed string starts and ends with non-white-space, and it is empty exactly when the input was all white space |
| Text.TrimEmptyIff | main.js:367 | `s.trim() === ""` holds exactly when every character of `s` is JavaScript white space |
| Text.TrimContained | main.js:419 | the trimmed string occurs inside the original |
| Text.ContainsIffOccurs | main.js:68 | `includes` holds exactly when the substring occurs at some index |
| Text.LowerUpper | main.js:60 | lower-casing an upper-cased string gives the same result as lower-casing the original |
| Text.JoinSplit | main.js:569-575 | joining the parts of `split(d)` with `d` gives back the original string |
| Text.SplitJoin | main.js:569-575 | splitting a join of delimiter-free parts gives back the parts |
| Text.Split | main.js:569 | `split` returns at least one part, and no part contains the delimiter |
| Snapshot.Native | main.js:359-360 | `path.join` on Windows changes each `/` of a relative path to `\` and leaves every other character in place |
| TyranoConfig.MatchTitle | main.js:389 | a match exists only where `;System.title` occurs; the capture is that of the leftmost position where the whole pattern matches, and there is none exactly when the pattern matches at no position |
| TyranoConfig.MatchAt | main.js:389 | a match at an index has `;System.title` there, and its capture contains no line terminator |
| TyranoConfig.CaptureEnd | main.js:389 | the lazy `(.*?)` stops at the first `";` it reaches and never crosses a line terminator |
| TyranoConfig.KeyAtMatch | main.js:389 | wherever the pattern matches, the key `;System.title` stands at that index |
| TyranoConfig.CaptureEndNone | main.js:389 | the capture fails only when no `";` can be reached before a line terminator or the end of the text |
| TyranoConfig.MatchAtShape | main.js:389 | a match at `i` has the pattern's structure: `;System.title`, white space, `=`, white space, `"`, then the shortest terminator-free run up to `";`, which is the capture |
| TyranoConfig.ShapeMatches | main.js:389 | conversely, wherever that structure stands, the pattern matches there with that capture |
| TyranoConfig.CaptureEndAt | main.js:389 | a `";` reached with no earlier `";` and no line terminator in between is where the capture stops |
| TyranoConfig.MatchFromLeftmost | main.js:389 | the search returns the match at the first position where one starts, and nothing when none starts anywhere |
| TyranoConfig.MatchTitleLeftmost | main.js:389 | the leftmost-match facts of `MatchTitle`, for the search from the start of the file |
| TyranoConfig.MatchFromPast | main.js:389 | positions where no match starts can be skipped without changing the result |
| TyranoConfig.KeyFreePrefix | main.js:389 | no match starts inside a prefix that does not contain `;System.title` when what follows it starts with `;` or is empty |
| TyranoConfig.MatchAtTitleLine | main.js:389 | a line `;System.title = "t";` is matched at its start, and the capture is `t` |
| TyranoConfig.TitleLineRoundTrip | main.js:388-391 | a configuration with a title line, where no match starts before the line, yields exactly that title, whatever follows |
| TyranoConfig.FirstTitleLineWins | main.js:388-391 | a title line with no `;System.title` before it yields exactly its title, whatever follows |
| ProductCode.DigitRun | main.js:419 | `\d+` takes the longest run of digits |
| ProductCode.TagLen | main.js:419 | a `[RJ<digits>]` tag in either letter case is recognised, and nothing else is |
| ProductCode.StripRJUntagged | main.js:419 | a name with no tag is left unchanged by the replace |
| ProductCode.NoBracketUntagged | main.js:419 | a name without `[` contains no tag |
| ProductCode.StripLeadingTag | main.js:419 | a leading tag is removed whole |
| ProductCode.StripRJAroundTag | main.js:419 | removing tags from `a + tag + b` removes the tag and the tags of `a` and `b` independently |
| ProductCode.StripRJSinglePass | main.js:419 | the replace makes one pass: `[RJ[RJ<d>]<d>]` becomes `[RJ<d>]`, which is itself a whole tag |
| ProductCode.FindCode | main.js:424 | the search finds the first index where `RJ` (any case) is followed by a digit, or proves there is none |
| ProductCode.RJCode | main.js:422-427 | no code exactly when `RJ<digit>` occurs nowhere; otherwise the code is `RJ` plus the whole digit run at the first occurrence, upper-cased |
| Metadata.SystemTitle | main.js:356-377 | the title is the untrimmed `gameTitle` of the first existing, parseable `System.json` whose title is not blank; it is absent exactly when no such file exists |
| Metadata.ConfigTitle | main.js:378-398 | the title is the non-empty capture of the first existing, readable `Config.tjs` whose capture is non-empty, with every earlier candidate absent or without one; there is no title exactly when every candidate is passed over or an existing file that cannot be read is reached first, which ends the search |
| Metadata.ConfigSearch | main.js:384-395 | the loop decides at the first candidate that does not let it go on: a title there, or nothing when that file cannot be read or no candidate is left |
| Metadata.PackageTitle | main.js:401-408 | the `package.json` name is used exactly when the file exists, parses, and its name is a non-empty string other than `rmmz-game` |
| Metadata.FallbackTitle | main.js:415-420 | the fallback title is no longer than the folder name; which tags it removes is stated by `StripRJAroundTag` and `FallbackDropsTrailingCode` |
| Metadata.ResolveTitle | main.js:355-420 | the engine's title wins when there is one; otherwise the usable `package.json` name; otherwise the folder-name fallback |
| Metadata.FirstPresent | main.js:429-441 | the first icon candidate that exists, or none exactly when none exists |
| Metadata.IconPathFor | main.js:429-441 | the icon path is the folder path joined to the first candidate that exists, and there is none exactly when no candidate exists |
| Metadata.GameMetadata | main.js:296-458 | `null` exactly when the folder is ignored or has no recognised entry page; otherwise the entry point exists and is the classified one, the engine is `web` or `tyrano`, the title follows the engine title, then `package.json`, then the fallback, the window is the `package.json` window, the icon is the first existing candidate joined to the folder path (none exactly when none exists), the code is `RJCode(folderName)`, and the game is slim exactly when it is a web game without `nw.exe`, `Game.exe` and `nw.dll` |
| Metadata.DetectEntryPoint | main.js:302-349 | the marker checks yield the classification `Classify` defines |
| Metadata.FindSystemTitle | main.js:356-377 | the `System.json` loop yields `SystemTitle` over both paths |
| Metadata.FindConfigTitle | main.js:378-398 | the `Config.tjs` loop, including its exit on a failed read, yields `ConfigTitle` over both paths |
| Metadata.FindIcon | main.js:429-441 | the icon loop yields the first present candidate, joined to the folder path |
| Metadata.GetGameMetadata | main.js:296-458 | the statement-by-statement method returns exactly `GameMetadata` |
| MetadataFacts.ClassifyNoneIff | main.js:307-349 | a folder is rejected exactly when neither the root nor the `www` entry page has its engine marker |
| MetadataFacts.ClassificationPrecedence | main.js:310-342 | root MV/MZ core beats root `tyrano`, which beats the `www` core under a root `index.html`; only without one of these is `www/index.html` used, and there the core beats `www/tyrano` |
| MetadataFacts.IgnoreListAnyCase | main.js:297-300 | upper-casing a folder name never changes whether it is ignored; `WWW`, `Locales` and `ICON` are ignored, `MyGame` is not |
| MetadataFacts.WwwSystemJsonFirst | main.js:358-370 | a usable `www/data/System.json` wins over `data/System.json` |
| MetadataFacts.TyranoTitleFromConfig | main.js:377-393 | a Tyrano game whose `data/system/Config.tjs` holds the title line, with no `;System.title` before it, takes that title |
| MetadataFacts.UnreadableConfigEndsSearch | main.js:384-397 | an existing `data/system/Config.tjs` that cannot be read ends the search with no engine title |
| MetadataFacts.PackageNameUsed | main.js:401-408 | without an engine title, a non-empty `package.json` name other than `rmmz-game` is the title |
| MetadataFacts.PlaceholderFallsBack | main.js:405-420 | the `rmmz-game` name is passed over for the folder-name fallback |
| MetadataFacts.FallbackWhenNoSource | main.js:415-420 | without an engine title and without `package.json`, the folder-name fallback is used |
| MetadataFacts.TrimOneTrailingSpace | main.js:419 | the `trim` after the replace removes the space left before a removed tag |
| MetadataFacts.FallbackDropsTrailingCode | main.js:419 | `name [RJ<digits>]` falls back to `name` |
| MetadataFacts.FallbackExample | main.js:419 | `MyGame [RJ123456]` falls back to `MyGame` |
| Scanner.ScanEntriesStep | main.js:279-290 | one more directory entry appends exactly that entry's games |
| Scanner.ScanRecursively | main.js:272-294 | the loop returns `ScanTree`: games in listing order, descending only into folders that are not games, stopping at depth 0, with unreadable folders contributing nothing |
| Scanner.ScanLibrary | main.js:254-270 | the scan returns `LibraryScan`: the recursive scan from depth 3, or the flat scan, which fails when the root cannot be read |
| Scanner.BelowChild | main.js:281 | a game found below a child folder is found below its parent |
| Scanner.ScanTreeBelow | main.js:272-294 | every game the recursive scan returns lies below the scanned path |
| Scanner.ScanTreeDeeper | main.js:272-294 | a larger depth never loses a game |
| Scanner.FlatWithinRecursive | main.js:254-294 | every game of the flat scan of a listing is found by the recursive scan of the same listing |
| Scanner.FlatScanWithinRecursiveScan | main.js:254-270 | when the flat scan succeeds, the recursive scan finds every game it finds |
| Settings.RunLength | main.js:179 | `parseInt` reads the longest run of digits valid in the radix |
| Settings.ParseIntTrimsStart | main.js:179-180 | `parseInt` ignores leading white space |
| Settings.NumberOr | main.js:179-180 | `x \|\| d` keeps a parsed non-zero number, and otherwise gives the fallback, so a non-zero fallback gives a non-zero result |
| Settings.DecimalValue | main.js:179 | the decimal text of `n` is all digits and reads back as `n` |
| Settings.ParseDigits | main.js:179 | a digit string parses to its value, and with a leading `-` to its negation |
| Settings.ParseDecimal | main.js:179 | `parseInt(String(n)) === n` and `parseInt("-" + n) === -n` |
| Settings.PositiveSizeKept | main.js:179-180 | a positive size typed in is kept |
| Settings.NonNumberFallsBack | main.js:179-180 | text that does not start with a sign, digit or space falls back to the default |
| Settings.ParseEmpty | main.js:179 | an empty field is `NaN` |
| Settings.ParseWithUnit | main.js:179 | `parseInt("  42px")` is 42 |
| Settings.ParseHex | main.js:179 | `parseInt("0x1F")` is 31 |
| Settings.ZeroFallsBack | main.js:179-180 | a size of 0 falls back to the default |
| Filter.Basename | main.js:474 | the base name is the longest separator-free suffix of the path |
| Filter.CardFolderIsName | main.js:474 | the card's folder attribute is the folder name the scan joined onto the library path |
| Filter.ApplyFilters | main.js:59-83 | after the loop, each card is hidden exactly when it does not match both the query and the type filter |
| Filter.VisibleIffOccurs | main.js:64-76 | a card is visible exactly when its type fits the filter and the lower-cased query occurs at some index of its lower-cased title or folder name |
| Filter.MarkCards | main.js:64-81 | each card's `hidden` flag is set to the negation of its match |
| Filter.EmptySearchShowsAll | main.js:59-83 | with a blank search and the `all` filter, every card is shown |
| Filter.AllSplitsIntoSlimAndFull | main.js:72-74 | a card shown under `all` is shown under exactly one of `slim` and `full` |
| Filter.SearchIgnoresCase | main.js:60-68 | the visibility does not depend on the case of the search text |
| Filter.FoundByTitle | main.js:66-68 | searching for a card's own title shows it whenever its type matches |
| Launch.ResolveWindow | main.js:588-597 | a non-zero `width`/`height` from `package.json` overrides the settings; a zero or missing one leaves the settings value; `fullscreen` is overridden whenever present |
| Launch.WindowNeverZero | main.js:179-180 | with sizes from the settings dialog, the resolved window never has a zero side |
| Launch.ToSlashes | main.js:585 | every backslash becomes `/` and nothing else changes |
| Launch.FileUrl | main.js:585-586 | the URL is `file:///` followed by the path, character for character, with each backslash turned into `/` |
| Launch.EntryUrl | main.js:556-586 | the entry URL is `file:///`, the slashed folder path, `/`, then the entry point |
| Launch.NodePathList | main.js:569-570 | the development `node_modules` is in the list, after all existing entries |
| Launch.NodePathUpdate | main.js:569-575 | an unset `NODE_PATH` becomes the dev path; one that already lists it is unchanged; otherwise the dev path is appended after the delimiter |
| Launch.NodePathIdempotent | main.js:569-575 | updating `NODE_PATH` a second time with the same development path changes nothing |
| Library.TitleLeTotal | main.js:462 | any two titles are ordered one way or the other |
| Library.TitleLeTransitive | main.js:462 | the title order is transitive |
| Library.Insert | main.js:462 | insertion into a sorted list keeps it sorted and adds exactly one element |
| Library.SortByTitle | main.js:462 | the sorted list is ordered by title and is a permutation of the input |
| Library.SortedPairwise | main.js:462 | in a sorted list every earlier title is at most every later one |
| Library.SortKeepsSorted | main.js:462 | sorting an already sorted list changes nothing |
| Library.CachedViewMatchesLastScan | main.js:237-239 | rendering the cached array again shows it in the order the scan showed |
| Library.CacheKey | main.js:215 | the key is `rpg_cache_` followed by the library path |
| Library.CacheKeyInjective | main.js:215 | two library paths never share a cache entry |
| Library.Launcher.constructor | main.js:6-22 | the state starts from the saved settings or the defaults, the saved library path and the stored cache, with the waiting status |
| Library.Launcher.ShowCached | main.js:210-230 | a cached list is shown sorted with its count; without a cache the grid is empty and the status says scanning |
| Library.Launcher.ShowScan | main.js:232-251 | after a successful scan, the sorted games are shown and cached under the key, and the status gives their count; after a failed scan the cache is unchanged, the cached view stays, and with no cache the empty state returns with the waiting text |
| Library.Launcher.LoadLibrary | main.js:210-252 | loading the library ends in the state `ShowsScan` describes for the scan of the current mode; the settings and path are unchanged, and a sorted cache stays sorted |
| Library.Launcher.Start | main.js:50-56 | with a stored library path that exists, the library is loaded; otherwise the empty state is shown; neither stored value is written |
| Library.Launcher.SetLibraryPath | main.js:197-202 | an empty path changes nothing; otherwise it is stored and the library loaded, leaving the stored settings as they were |
| Library.Launcher.StoreSettings | main.js:178-184 | the settings become the parsed sizes (with the 816/624 fallbacks) and the check boxes, and are saved |
| Library.Launcher.SaveSettings | main.js:178-188 | the settings are stored with non-zero sizes and saved, then the library is reloaded in the new scan mode; the stored library path is not written |
| Library.Launcher.Reload | main.js:186-187 | a set library path is reloaded, and nothing changes without one; neither stored value is written |
| Cleanup.AddExes | main.js:926-942 | the manifest keeps the fixed list as a prefix and gains exactly the root `.exe` files not starting with `unins`, each not already listed, in the order of their first appearance in the directory listing; a list without duplicates stays without them |
| Cleanup.AddExesStep | main.js:928-939 | one iteration of the `.exe` loop appends a file only when it is a removable `.exe` not yet listed |
| Cleanup.FixedFilesDistinct | main.js:905-923 | the fixed file list has no duplicates |
| Cleanup.ManifestContents | main.js:905-942 | the manifest is the fixed list when the folder cannot be listed; otherwise it is the fixed list followed by the removable `.exe` files in listing order, without duplicates |
| Cleanup.UninstallerKept | main.js:931 | an uninstaller (`unins*`, any case) is never recycled |
| Cleanup.EscapeQuotes | main.js:957 | the escaped path is longer by exactly the number of `'` in it, and a path without `'` is unchanged |
| Cleanup.ReadQuoted | main.js:959 | PowerShell's reading of a single-quoted literal: text with no quote character is unterminated, and what follows the literal is a suffix of the text |
| Cleanup.EscapeRoundTrip | main.js:957-959 | for a path without typographic quotes, PowerShell reading the single-quoted literal gets back exactly the path and the text after it |
| Cleanup.QuotedAfter | main.js:959 | for a path without typographic quotes, the literal after any command head reads back as the path |
| Cleanup.RecycleCommandQuotesPath | main.js:954-959 | for a path without typographic quotes, the command passes it to `DeleteFile`/`DeleteDirectory` as one literal that reads back as that path |
| Cleanup.TypographicQuoteCutsPath | main.js:957-959 | the path `a’b` is cut at the typographic quote: PowerShell reads the path `a`, and `b'` spills into the rest of the command |
| Cleanup.EscapeAllQuotes | main.js:957 | doubling every quote character never shortens the path, and a path without quote characters is unchanged |
| Cleanup.EscapeAllRoundTrip | main.js:957-959 | with every quote character doubled, PowerShell reads back exactly the path, whatever it holds |
| Cleanup.RecycleCommandAllQuotesPath | main.js:954-959 | with every quote character doubled, the command's literal reads back as the item's path for every path |
| Cleanup.FileItems | main.js:972 | the file pass covers each manifest entry, in order, as a file |
| Cleanup.Remove | main.js:975 | recycling removes exactly the entries with that name in any case |
| Cleanup.Process | main.js:971-997 | the number of recycled items plus the number of failures never exceeds the number of items, and nothing new appears |
| Cleanup.CountedAtTurn | main.js:971-997 | `deletedCount + errors` is exactly the number of items that exist when their turn comes |
| Cleanup.PresentAtTurn | main.js:971-997 | with names distinct in any case, an item exists at its turn exactly when it existed at the start |
| Cleanup.CountedPresent | main.js:971-997 | with names distinct in any case, `deletedCount + errors` is the number of items that existed at the start |
| Cleanup.CaseTwinCountedOnce | main.js:971-997 | `Game.exe` and `game.exe` name one entry: both exist at the start, but the second is gone at its turn, so one item is counted |
| Cleanup.ProcessAppend | main.js:971-997 | the file pass followed by the folder pass counts as the sum of the two passes |
| Cleanup.OutcomeOf | main.js:999-1005 | any failure gives the partial message, no failure and nothing removed gives "already slim", otherwise "success" with the count |
| Cleanup.NothingCountedIff | main.js:971-997 | nothing is counted exactly when no manifest item exists in the folder |
| Cleanup.CleanRunRemovesAll | main.js:971-997 | when no recycle fails, no manifest item is left in the folder |
| Cleanup.OthersKept | main.js:971-997 | an entry not named in the manifest is never removed |
| Cleanup.GameFolder.constructor | main.js:902 | the folder object holds the path, whether it can be listed, and its entries |
| Cleanup.GameFolder.BuildManifest | main.js:905-942 | the method builds the manifest `Manifest` defines |
| Cleanup.GameFolder.RecycleOne | main.js:973-982 | one item updates the counters and the entries as `Process` does for one item |
| Cleanup.GameFolder.RecycleAll | main.js:971-997 | the loop updates the counters and the entries as `Process` does for the whole list |
| Cleanup.GameFolder.Clean | main.js:902-1006 | the counters and the remaining entries are those of `Process` over the files, then the folders, and the outcome is `OutcomeOf` the counters |
| Legacy.LegacyEntry | verify_logic.js:51-74 | an entry point exists, and there is none exactly when none of `index.html`, `www/index.html`, `Game.exe`, `RPG_RT.exe` exists |
| Legacy.LegacyEntryPrecedence | verify_logic.js:51-68 | root `index.html` beats `www/index.html`, which beats `Game.exe`, which beats `RPG_RT.exe` |
| Legacy.PackageStepTitle | verify_logic.js:76-85 | a non-empty `package.json` name replaces the folder name; otherwise the folder name stays |
| Legacy.LegacySystemTitle | verify_logic.js:89-104 | the title is the non-empty `gameTitle` of the first existing `System.json` that has one, every earlier candidate being absent or parsing without one; there is none exactly when every candidate is passed over or a file that does not parse is reached first |
| Legacy.LegacyTitle | verify_logic.js:76-104 | a title that is neither a placeholder nor the folder name is kept; otherwise the `System.json` title replaces it when there is one |
| Legacy.PackageNameKept | verify_logic.js:76-104 | a usable `package.json` name other than the placeholders and the folder name is the title |
| Legacy.PlaceholderTakesSystemTitle | verify_logic.js:88-101 | a placeholder name gives way to the first non-empty `gameTitle` of the lookup |
| Legacy.FindLegacySystemTitle | verify_logic.js:89-104 | the loop yields `LegacySystemTitle`, including its exit when a file does not parse |
| Legacy.CheckAndAddGame | verify_logic.js:47-107 | the method returns exactly `LegacyGame` |
| Legacy.UnparsableSystemJsonEndsLookup | verify_logic.js:89-103 | an unparseable `www/data/System.json` ends the legacy lookup without a title |
| Legacy.MainSkipsUnparsableSystemJson | main.js:363-372 | the current detector skips an unparseable file and reads `data/System.json`, where the legacy one gives up |
| Legacy.LegacyAcceptsMainGames | verify_logic.js:47-107 | every game the current detector accepts, the legacy one accepts too, with the same entry point except for a Tyrano game under `www` next to a root `index.html` |
| Legacy.EntryPointsAgree | verify_logic.js:51-69 | the two classifiers agree on the entry point, apart from that one Tyrano case |
| Legacy.LegacyFixtures | verify_logic.js:14-36 | the three fixtures are found as `Legacy_Game`/`Game.exe`, `Web_Game`/`index.html` and `TRUE_MZ_TITLE`/`index.html` |
| Legacy.MainRejectsFixtures | verify_logic.js:14-36 | the current detector rejects all three fixtures, since none has an engine marker |

## Left out

- User interface: the DOM, the views, alerts, the confirmation text and the card HTML are not modelled. The model keeps only the grid contents, the status kind with its count, the empty-state flag and the cards' `hidden` flags.
- The game view: NW.js windows, the iframe, and the script patches injected into games are not modelled. `launchGame` is modelled only through its values: the window size, the URL and `NODE_PATH`.
- `process.chdir` and `Module._initPaths` are left out: they touch the running process.
- The `exe` branch of `launchGame` (main.js:624-633), which starts the executable through `execFile`, is left out. `getGameMetadata` never returns an `exe` game.
- The PowerShell call is an oracle parameter. Its exit status decides success; its side effect on the folder is modelled as removing the entry.
- `localStorage` and JSON are left out. The cache is a map from key to game list, and settings are values. A cache entry that fails to parse (main.js:224-227) is not modelled; the cache holds only lists the launcher wrote.
- The merge of stored settings with the defaults (main.js:15-22) is modelled as "the stored settings, if any".
- Asynchrony is left out. `loadLibrary`, the scans and the recycling are sequential here, so runs cannot interleave.
- JSON values of the wrong type are left out: a numeric `gameTitle`, a string `width` or a `null` `fullscreen`. Titles and names are strings or absent, sizes integers, `fullscreen` a boolean.
- Library.SortByTitle: the order is code-unit lexicographic order, not `localeCompare`, and sort stability is not claimed.
- Text.Lower: ASCII case mapping only. The case-insensitive comparisons involve the ignore list, the `unins` prefix, the search box and the `RJ` patterns; all their keywords are ASCII.
- Strings are sequences of characters, not UTF-16 code units.
- Snapshot.PathJoin: `path.join` is modelled for a Windows directory and a relative path without `.`/`..` segments. No normalisation is done.
- Filter.Basename: a path ending in a separator is not stripped first, as Node would. Card paths never end in one.
- Settings.ParseInt: numbers are unbounded integers. The loss of precision above 2^53 is not modelled, and `Infinity` cannot arise.
- The DLsite link and the context menu that use `rjCode` are left out; only the code is modelled.
- `openGameDevTools` and the F8/F12 key listener (main.js:1008-1031) are left out: they only open the developer tools.
- The `run` driver of `verify_logic.js` (lines 1-45) is left out: it creates the fixtures on disk and scans them. The fixtures themselves are modelled as `Folder` values.
- Cleanup.EscapeRoundTrip: stated only for paths without the typographic single quotes U+2018 to U+201B. PowerShell also ends a single-quoted literal at those, and the launcher does not double them (see Findings).
- Cleanup.QuotedAfter: stated only for paths without typographic single quotes, for the same reason.
- Cleanup.RecycleCommandQuotesPath: stated only for paths without typographic single quotes. `TypographicQuoteCutsPath` shows what happens to a path with one.
- The `cmd.exe` layer in front of PowerShell is not modelled. `exec` hands the command to `cmd.exe`, which expands `%NAME%` for a defined variable even inside quotes, so such a path can reach PowerShell changed. `ReadQuoted` models PowerShell's reading only.
- Launch.NodePathIdempotent: it covers only two updates made with the same development path, that is, two launches from the same current directory. The launcher takes that path as `node_modules` under the current directory (main.js:567). Each launch ends by changing directory to the game folder (main.js:578). Returning to the library view changes directory to the executable's folder (main.js:103-104), not back to the start-up directory. So a second launch appends `node_modules` under the executable's folder, which differs from the first launch's path whenever the launcher was not started from that folder.

## Findings

| source | as written | input that shows it | evidently intended | confidence | as-written member | corrected member |
|---|---|---|---|---|---|---|
| main.js:957 | only the ASCII `'` is doubled before the path is put between single quotes | a path holding `’` (U+2019), such as `a’b`: PowerShell reads the path `a`, and `b'` spills into the command | every character PowerShell takes as a single quote (U+0027 and U+2018 to U+201B) is doubled, so every path reads back whole | not executed | Cleanup.TypographicQuoteCutsPath | Cleanup.RecycleCommandAllQuotesPath |

=== FILE: cleanup.dfy ===
/**
 * Slimming a game folder: the list of NW.js runtime files to recycle, the
 * PowerShell command that recycles one item, and the cleanup pass with its
 * two counters and three outcomes.
 */
module Cleanup {
  import opened Common
  import opened Text
  import opened Snapshot

  /** The runtime files always on the removal list, in this order. */
  const FixedFiles: seq<string> := [
    "nw.exe", "Game.exe", "crashpad_handler.exe", "notification_helper.exe",
    "nw.dll", "node.dll", "ffmpeg.dll", "libGLESv2.dll", "libEGL.dll",
    "vk_swiftshader.dll", "vulcan-1.dll", "nw_100_percent.pak", "nw_200_percent.pak",
    "resources.pak", "icudtl.dat", "v8_context_snapshot.bin", "credits.html"]

  /** The runtime folders always removed after the files. */
  const FixedFolders: seq<string> := ["locales", "swiftshader", "pnacl"]

  predicate Distinct(s: seq<string>)
  {
    forall i, j :: 0 <= i < j < |s| ==> s[i] != s[j]
  }

  /** An executable at the folder root that is not an uninstaller (both tests ignore case). */
  predicate IsRemovableExe(name: string)
  {
    EndsWith(Lower(name), ".exe") && !StartsWith(Lower(name), "unins")
  }

  /** The index of the first occurrence of `x` in `names`, or `|names|` when there is none. */
  function IndexOf(names: seq<string>, x: string): (k: nat)
    ensures k <= |names|
    ensures k < |names| ==> names[k] == x
    ensures forall j :: 0 <= j < k ==> names[j] != x
    decreases |names|
  {
    if names == [] then 0
    else if names[0] == x then 0
    else 1 + IndexOf(names[1..], x)
  }

  /**
   * Appends, in listing order, each removable executable not yet on the list:
   * the appended names are new, and they stand in the order of their first
   * occurrence in the listing.
   */
  function AddExes(list: seq<string>, names: seq<string>): (r: seq<string>)
    ensures list <= r
    ensures forall x :: x in r <==> x in list || (x in names && IsRemovableExe(x))
    ensures Distinct(list) ==> Distinct(r)
    ensures forall i :: |list| <= i < |r| ==> r[i] !in list
    ensures forall i, j :: |list| <= i < j < |r| ==> IndexOf(names, r[i]) < IndexOf(names, r[j])
    decreases |names|
  {
    if names == [] then list
    else
      var file := names[0];
      var next := if IsRemovableExe(file) && file !in list then list + [file] else list;
      var r := AddExes(next, names[1..]);
      AddExesLater(list, next, names, r);
      AddExesMembers(list, next, names, r);
      r
  }

  /** The names the rest of the listing appends come after the first listed name. */
  lemma AddExesLater(list: seq<string>, next: seq<string>, names: seq<string>, r: seq<string>)
    requires names != []
    requires next == if IsRemovableExe(names[0]) && names[0] !in list then list + [names[0]] else list
    requires next <= r
    requires forall x :: x in r ==> x in next || (x in names[1..] && IsRemovableExe(x))
    requires forall i :: |next| <= i < |r| ==> r[i] !in next
    requires forall i, j :: |next| <= i < j < |r| ==> IndexOf(names[1..], r[i]) < IndexOf(names[1..], r[j])
    ensures forall i :: |list| <= i < |r| ==> r[i] !in list
    ensures forall i, j :: |list| <= i < j < |r| ==> IndexOf(names, r[i]) < IndexOf(names, r[j])
  {
    forall i | |next| <= i < |r|
      ensures r[i] != names[0] && IndexOf(names, r[i]) == 1 + IndexOf(names[1..], r[i])
    {
      LaterNotFirst(list, next, names, r, i);
    }
    forall i | |list| <= i < |next|
      ensures r[i] == names[0] && r[i] !in list && IndexOf(names, r[i]) == 0
    {
    }
  }

  /** The names on the list after the whole listing are those the first name and the rest of the listing contribute. */
  lemma AddExesMembers(list: seq<string>, next: seq<string>, names: seq<string>, r: seq<string>)
    requires names != []
    requires next == if IsRemovableExe(names[0]) && names[0] !in list then list + [names[0]] else list
    requires next <= r
    requires forall x :: x in r <==> x in next || (x in names[1..] && IsRemovableExe(x))
    requires Distinct(next) ==> Distinct(r)
    ensures list <= r
    ensures forall x :: x in r <==> x in list || (x in names && IsRemovableExe(x))
    ensures Distinct(list) ==> Distinct(r)
  {
    assert forall x :: x in names <==> x == names[0] || x in names[1..];
  }

  lemma LaterNotFirst(list: seq<string>, next: seq<string>, names: seq<string>, r: seq<string>, i: nat)
    requires names != []
    requires next == if IsRemovableExe(names[0]) && names[0] !in list then list + [names[0]] else list
    requires |next| <= i < |r|
    requires forall x :: x in r ==> x in next || (x in names[1..] && IsRemovableExe(x))
    requires r[i] !in next
    ensures r[i] != names[0]
  {
    var x := r[i];
    assert x in r;
    if IsRemovableExe(names[0]) && names[0] !in list {
      assert names[0] in next;
    }
  }

  lemma AddExesStep(list: seq<string>, names: seq<string>, i: nat)
    requires i < |names|
    ensures AddExes(list, names[i..]) ==
      AddExes(if IsRemovableExe(names[i]) && names[i] !in list then list + [names[i]] else list, names[i + 1..])
  {
    assert names[i..][0] == names[i] && names[i..][1..] == names[i + 1..];
  }

  /** The file list; `None` stands for a root listing that failed, which leaves the fixed list. */
  function Manifest(listing: Option<seq<string>>): seq<string>
  {
    match listing
    case None => FixedFiles
    case Some(names) => AddExes(FixedFiles, names)
  }

  lemma FixedFilesDistinct()
    ensures Distinct(FixedFiles)
  {
  }

  /** The fixed files come first, and an extra name is exactly a listed removable executable. */
  lemma ManifestContents(listing: Option<seq<string>>)
    ensures FixedFiles <= Manifest(listing)
    ensures Distinct(Manifest(listing))
    ensures listing.None? ==> Manifest(listing) == FixedFiles
    ensures listing.Some? ==> forall x :: x in Manifest(listing) <==>
      x in FixedFiles || (x in listing.value && IsRemovableExe(x))
    ensures listing.Some? ==> forall i, j :: |FixedFiles| <= i < j < |Manifest(listing)| ==>
      IndexOf(listing.value, Manifest(listing)[i]) < IndexOf(listing.value, Manifest(listing)[j])
  {
    FixedFilesDistinct();
  }

  /** An uninstaller is never on the list, whatever the listing holds. */
  lemma UninstallerKept(listing: Option<seq<string>>, name: string)
    requires StartsWith(Lower(name), "unins")
    ensures name !in Manifest(listing)
  {
    var l := Lower(name);
    assert l[0] == 'u' && l[0] == LowerChar(name[0]);
    assert name[0] == 'u' || name[0] == 'U';
    ManifestContents(listing);
    if name in FixedFiles {
      var k :| 0 <= k < |FixedFiles| && FixedFiles[k] == name;
      FixedFileInitial(k);
    }
  }

  /** No fixed file starts with `u` or `U`. */
  lemma FixedFileInitial(k: nat)
    requires k < |FixedFiles|
    ensures FixedFiles[k] != [] && FixedFiles[k][0] != 'u' && FixedFiles[k][0] != 'U'
  {
    assert k in {0, 1, 2, 3, 4, 5, 6, 7, 8, 9, 10, 11, 12, 13, 14, 15, 16};
  }

  // ---------------------------------------------------------------------------
  // The recycle command

  /**
   * The characters PowerShell accepts as a single quote: the ASCII apostrophe
   * and the four typographic single quotes U+2018 to U+201B.
   */
  predicate IsQuote(c: char)
  {
    c == '\'' || c == '\U{2018}' || c == '\U{2019}' || c == '\U{201A}' || c == '\U{201B}'
  }

  /** Doubles every ASCII apostrophe, and only that character, as the launcher does. */
  function EscapeQuotes(s: string): (r: string)
    ensures |r| == |s| + |Quotes(s, '\'')|
    ensures '\'' !in s ==> r == s
    decreases |s|
  {
    if s == [] then []
    else (if s[0] == '\'' then "''" else [s[0]]) + EscapeQuotes(s[1..])
  }

  /** The occurrences of `c` in `s`. */
  function Quotes(s: string, c: char): (r: string)
    ensures |r| <= |s|
    ensures c !in s ==> r == []
    decreases |s|
  {
    if s == [] then [] else (if s[0] == c then [c] else []) + Quotes(s[1..], c)
  }

  /**
   * PowerShell's reading of a single-quoted literal whose opening quote has
   * been consumed: two quote characters in a row stand for the second of
   * them, a lone quote character closes the literal. The result is the
   * literal's value and what follows the closing quote.
   */
  function ReadQuoted(t: string): (r: Option<(string, string)>)
    ensures (forall k :: 0 <= k < |t| ==> !IsQuote(t[k])) ==> r.None?
    ensures r.Some? ==> |r.value.0| + |r.value.1| < |t| && r.value.1 == t[|t| - |r.value.1|..]
    decreases |t|
  {
    if t == [] then None
    else if IsQuote(t[0]) then
      if |t| >= 2 && IsQuote(t[1]) then
        match ReadQuoted(t[2..])
        case None => None
        case Some(p) => Some(([t[1]] + p.0, p.1))
      else Some(([], t[1..]))
    else
      match ReadQuoted(t[1..])
      case None => None
      case Some(p) => Some(([t[0]] + p.0, p.1))
  }

  /** No typographic single quote: the only quote character is the apostrophe. */
  predicate OnlyAsciiQuotes(s: string)
  {
    forall k :: 0 <= k < |s| ==> IsQuote(s[k]) ==> s[k] == '\''
  }

  /** A character other than a quote is part of the literal. */
  lemma ReadPlain(c: char, u: string, lit: string, rest: string)
    requires !IsQuote(c)
    requires ReadQuoted(u) == Some((lit, rest))
    ensures ReadQuoted([c] + u) == Some(([c] + lit, rest))
  {
    assert ([c] + u)[1..] == u;
  }

  /** A doubled quote character is one such character of the literal. */
  lemma ReadDoubled(c: char, u: string, lit: string, rest: string)
    requires IsQuote(c)
    requires ReadQuoted(u) == Some((lit, rest))
    ensures ReadQuoted([c, c] + u) == Some(([c] + lit, rest))
  {
    assert ([c, c] + u)[2..] == u;
  }

  /** A lone quote character closes the literal. */
  lemma ReadClose(rest: string)
    requires rest == [] || !IsQuote(rest[0])
    ensures ReadQuoted("'" + rest) == Some(([], rest))
  {
    assert ("'" + rest)[1..] == rest;
  }

  /** An escaped path without typographic quotes, inside quotes, reads back as the path itself. */
  lemma {:induction false} EscapeRoundTrip(s: string, rest: string)
    requires OnlyAsciiQuotes(s)
    requires rest == [] || !IsQuote(rest[0])
    ensures ReadQuoted(EscapeQuotes(s) + "'" + rest) == Some((s, rest))
    decreases |s|
  {
    if s == [] {
      assert EscapeQuotes(s) + "'" + rest == "'" + rest;
      ReadClose(rest);
    } else {
      assert OnlyAsciiQuotes(s[1..]) by {
        assert forall k :: 0 <= k < |s| - 1 ==> s[1..][k] == s[k + 1];
      }
      EscapeRoundTrip(s[1..], rest);
      EscapeStep(s[0], s[1..], rest);
      assert [s[0]] + s[1..] == s;
    }
  }

  /** One more leading character keeps the escaped literal reading back. */
  lemma EscapeStep(c: char, t: string, rest: string)
    requires IsQuote(c) ==> c == '\''
    requires ReadQuoted(EscapeQuotes(t) + "'" + rest) == Some((t, rest))
    ensures ReadQuoted(EscapeQuotes([c] + t) + "'" + rest) == Some(([c] + t, rest))
  {
    var e := EscapeQuotes(t);
    var u := e + "'" + rest;
    var h := if c == '\'' then [c, c] else [c];
    assert EscapeQuotes([c] + t) == h + e by {
      assert ([c] + t)[1..] == t;
    }
    ConcatAssoc(h, e, "'");
    ConcatAssoc(h, e + "'", rest);
    if c == '\'' {
      ReadDoubled(c, u, t, rest);
    } else {
      ReadPlain(c, u, t, rest);
    }
  }

  /** Doubles every character PowerShell takes for a single quote. */
  function EscapeAllQuotes(s: string): (r: string)
    ensures |r| >= |s|
    ensures (forall k :: 0 <= k < |s| ==> !IsQuote(s[k])) ==> r == s
    decreases |s|
  {
    if s == [] then []
    else (if IsQuote(s[0]) then [s[0], s[0]] else [s[0]]) + EscapeAllQuotes(s[1..])
  }

  /** With every quote character doubled, any path reads back as itself. */
  lemma {:induction false} EscapeAllRoundTrip(s: string, rest: string)
    requires rest == [] || !IsQuote(rest[0])
    ensures ReadQuoted(EscapeAllQuotes(s) + "'" + rest) == Some((s, rest))
    decreases |s|
  {
    if s == [] {
      assert EscapeAllQuotes(s) + "'" + rest == "'" + rest;
      ReadClose(rest);
    } else {
      EscapeAllRoundTrip(s[1..], rest);
      EscapeAllStep(s[0], s[1..], rest);
      assert [s[0]] + s[1..] == s;
    }
  }

  /** One more leading character keeps the fully escaped literal reading back. */
  lemma EscapeAllStep(c: char, t: string, rest: string)
    requires ReadQuoted(EscapeAllQuotes(t) + "'" + rest) == Some((t, rest))
    ensures ReadQuoted(EscapeAllQuotes([c] + t) + "'" + rest) == Some(([c] + t, rest))
  {
    var e := EscapeAllQuotes(t);
    var u := e + "'" + rest;
    var h := if IsQuote(c) then [c, c] else [c];
    assert EscapeAllQuotes([c] + t) == h + e by {
      assert ([c] + t)[1..] == t;
    }
    ConcatAssoc(h, e, "'");
    ConcatAssoc(h, e + "'", rest);
    if IsQuote(c) {
      ReadDoubled(c, u, t, rest);
    } else {
      ReadPlain(c, u, t, rest);
    }
  }

  function RecycleMethod(isDirectory: bool): string
  {
    if isDirectory then "DeleteDirectory" else "DeleteFile"
  }

  function CommandHead(isDirectory: bool): string
  {
    "powershell.exe -NoProfile -Command \"Add-Type -AssemblyName Microsoft.VisualBasic; "
    + "[Microsoft.VisualBasic.FileIO.FileSystem]::" + RecycleMethod(isDirectory) + "('"
  }

  /** What follows the path's closing quote. */
  const CommandRest: string := ", 'OnlyErrorDialogs', 'SendToRecycleBin')\""

  /** The shell command that sends one item to the recycle bin. */
  function RecycleCommand(itemPath: string, isDirectory: bool): string
  {
    CommandHead(isDirectory) + EscapeQuotes(itemPath) + "'" + CommandRest
  }

  /** The path's literal starts right after the command head. */
  lemma QuotedAfter(h: string, p: string, rest: string)
    requires OnlyAsciiQuotes(p)
    requires rest == [] || !IsQuote(rest[0])
    ensures ReadQuoted((h + EscapeQuotes(p) + "'" + rest)[|h|..]) == Some((p, rest))
  {
    SliceAfter(h, EscapeQuotes(p), rest);
    EscapeRoundTrip(p, rest);
  }

  /** For a path without typographic quotes, the first argument PowerShell sees is exactly that path. */
  lemma RecycleCommandQuotesPath(itemPath: string, isDirectory: bool)
    requires OnlyAsciiQuotes(itemPath)
    ensures var c := RecycleCommand(itemPath, isDirectory);
      ReadQuoted(c[|CommandHead(isDirectory)|..]) == Some((itemPath, CommandRest))
  {
    RestIsNotQuote();
    QuotedAfter(CommandHead(isDirectory), itemPath, CommandRest);
  }

  /**
   * A path holding a typographic quote is cut short: for `a\u2019b` PowerShell
   * reads the path `a`, and `b'` spills into the rest of the command.
   */
  lemma TypographicQuoteCutsPath(isDirectory: bool)
    ensures var c := RecycleCommand("a\U{2019}b", isDirectory);
      ReadQuoted(c[|CommandHead(isDirectory)|..]) == Some(("a", "b'" + CommandRest))
  {
    SliceAfter(CommandHead(isDirectory), EscapeQuotes("a\U{2019}b"), CommandRest);
    TypographicQuoteCut(CommandRest);
  }

  lemma TypographicQuoteCut(rest: string)
    ensures ReadQuoted(EscapeQuotes("a\U{2019}b") + "'" + rest) == Some(("a", "b'" + rest))
  {
    var p := "a\U{2019}b";
    assert EscapeQuotes(p[2..]) == "b";
    assert EscapeQuotes(p[1..]) == [p[1]] + "b";
    assert EscapeQuotes(p) == p;
    var t := p + "'" + rest;
    assert t[1..][0] == '\U{2019}' && t[1..][1] == 'b';
    assert t[1..][1..] == "b'" + rest;
    assert ReadQuoted(t[1..]) == Some(([], "b'" + rest));
    assert t[0] == 'a' && !IsQuote(t[0]);
    assert ReadQuoted(t) == Some(([t[0]] + [], "b'" + rest));
    assert [t[0]] + [] == "a";
    assert EscapeQuotes(p) + "'" + rest == t;
  }

  /** The command with every quote character doubled. */
  function RecycleCommandAllQuotes(itemPath: string, isDirectory: bool): string
  {
    CommandHead(isDirectory) + EscapeAllQuotes(itemPath) + "'" + CommandRest
  }

  /** With every quote character doubled, the first argument is exactly the item's path, whatever it holds. */
  lemma RecycleCommandAllQuotesPath(itemPath: string, isDirectory: bool)
    ensures var c := RecycleCommandAllQuotes(itemPath, isDirectory);
      ReadQuoted(c[|CommandHead(isDirectory)|..]) == Some((itemPath, CommandRest))
  {
    RestIsNotQuote();
    SliceAfter(CommandHead(isDirectory), EscapeAllQuotes(itemPath), CommandRest);
    EscapeAllRoundTrip(itemPath, CommandRest);
  }

  /** What follows the path's literal does not start with a quote character. */
  lemma RestIsNotQuote()
    ensures CommandRest != [] && !IsQuote(CommandRest[0])
  {
    assert CommandRest[0] == ',';
  }

  /** The literal's text and what follows it, after a command head `h`. */
  lemma SliceAfter(h: string, x: string, rest: string)
    ensures (h + x + "'" + rest)[|h|..] == x + "'" + rest
  {
    assert h + x + "'" + rest == h + (x + "'" + rest);
  }

  // ---------------------------------------------------------------------------
  // The cleanup pass

  /** One thing to recycle: a root file or a root folder. */
  datatype Item = Item(name: string, isDirectory: bool)

  function FileItems(files: seq<string>): (r: seq<Item>)
    ensures |r| == |files|
    ensures forall k :: 0 <= k < |files| ==> r[k] == Item(files[k], false)
  {
    seq(|files|, k requires 0 <= k < |files| => Item(files[k], false))
  }

  const FolderItems: seq<Item> := [Item("locales", true), Item("swiftshader", true), Item("pnacl", true)]

  /** The names at the root match `name` on a file system that ignores case. */
  predicate Present(entries: seq<string>, name: string)
  {
    exists i :: 0 <= i < |entries| && Lower(entries[i]) == Lower(name)
  }

  /** The root after `name` has gone to the recycle bin. */
  function Remove(entries: seq<string>, name: string): (r: seq<string>)
    ensures forall x :: x in r <==> x in entries && Lower(x) != Lower(name)
    ensures !Present(r, name)
    decreases |entries|
  {
    if entries == [] then []
    else
      var rest := Remove(entries[1..], name);
      assert forall x :: x in entries <==> x == entries[0] || x in entries[1..];
      if Lower(entries[0]) == Lower(name) then rest else [entries[0]] + rest
  }

  datatype Tally = Tally(deleted: nat, errors: nat, remaining: seq<string>)

  /**
   * Each item that exists when its turn comes is handed to `recycle`; a
   * success removes it and counts as deleted, a failure counts as an error
   * and leaves it in place. Absent items are skipped.
   */
  function Process(entries: seq<string>, items: seq<Item>, folderPath: string,
                   recycle: (string, bool) -> bool): (t: Tally)
    ensures t.deleted + t.errors <= |items|
    ensures forall x :: x in t.remaining ==> x in entries
    decreases |items|
  {
    if items == [] then Tally(0, 0, entries)
    else
      var it := items[0];
      if !Present(entries, it.name) then Process(entries, items[1..], folderPath, recycle)
      else if recycle(PathJoin(folderPath, it.name), it.isDirectory) then
        var t := Process(Remove(entries, it.name), items[1..], folderPath, recycle);
        Tally(t.deleted + 1, t.errors, t.remaining)
      else
        var t := Process(entries, items[1..], folderPath, recycle);
        Tally(t.deleted, t.errors + 1, t.remaining)
  }

  /** Processing an item and then the rest adds up the two tallies. */
  lemma ProcessStep(entries: seq<string>, item: Item, rest: seq<Item>, folderPath: string,
                    recycle: (string, bool) -> bool)
    ensures var t1 := Process(entries, [item], folderPath, recycle);
      var t2 := Process(t1.remaining, rest, folderPath, recycle);
      Process(entries, [item] + rest, folderPath, recycle) ==
        Tally(t1.deleted + t2.deleted, t1.errors + t2.errors, t2.remaining)
  {
    assert ([item] + rest)[1..] == rest;
    assert [item][1..] == [];
  }

  /** Processing one list and then another adds up the two tallies. */
  lemma {:induction false} ProcessAppend(entries: seq<string>, a: seq<Item>, b: seq<Item>, folderPath: string,
                                        recycle: (string, bool) -> bool)
    ensures var t1 := Process(entries, a, folderPath, recycle);
      var t2 := Process(t1.remaining, b, folderPath, recycle);
      Process(entries, a + b, folderPath, recycle) ==
        Tally(t1.deleted + t2.deleted, t1.errors + t2.errors, t2.remaining)
    decreases |a|
  {
    if a == [] {
      assert a + b == b;
    } else {
      assert a + b == [a[0]] + (a[1..] + b);
      assert a == [a[0]] + a[1..];
      ProcessStep(entries, a[0], a[1..] + b, folderPath, recycle);
      ProcessStep(entries, a[0], a[1..], folderPath, recycle);
      var e := Process(entries, [a[0]], folderPath, recycle).remaining;
      ProcessAppend(e, a[1..], b, folderPath, recycle);
    }
  }

  /** The three messages shown at the end. */
  datatype Outcome = PartlyFailed(removed: nat) | AlreadySlim | Slimmed(removed: nat)

  function OutcomeOf(deleted: nat, errors: nat): (o: Outcome)
    ensures o.PartlyFailed? <==> errors > 0
    ensures o.AlreadySlim? <==> errors == 0 && deleted == 0
    ensures o.Slimmed? <==> errors == 0 && deleted > 0
    ensures !o.AlreadySlim? ==> o.removed == deleted
  {
    if errors > 0 then PartlyFailed(deleted)
    else if deleted == 0 then AlreadySlim
    else Slimmed(deleted)
  }

  lemma PresentWithin(small: seq<string>, big: seq<string>, name: string)
    requires forall x :: x in small ==> x in big
    requires Present(small, name)
    ensures Present(big, name)
  {
    var i :| 0 <= i < |small| && Lower(small[i]) == Lower(name);
    assert small[i] in big;
    var j :| 0 <= j < |big| && big[j] == small[i];
  }

  /** Nothing is counted exactly when no item exists in the folder to begin with. */
  lemma {:induction false} NothingCountedIff(entries: seq<string>, items: seq<Item>, folderPath: string,
                                            recycle: (string, bool) -> bool)
    ensures var t := Process(entries, items, folderPath, recycle);
      t.deleted == 0 && t.errors == 0 <==> forall k :: 0 <= k < |items| ==> !Present(entries, items[k].name)
    decreases |items|
  {
    if items != [] {
      NothingCountedIff(entries, items[1..], folderPath, recycle);
      assert forall k :: 1 <= k < |items| ==> items[k] == items[1..][k - 1];
    }
  }

  /** When nothing failed, no item is left in the folder. */
  lemma {:induction false} CleanRunRemovesAll(entries: seq<string>, items: seq<Item>, folderPath: string,
                                             recycle: (string, bool) -> bool)
    ensures var t := Process(entries, items, folderPath, recycle);
      t.errors == 0 ==> forall k :: 0 <= k < |items| ==> !Present(t.remaining, items[k].name)
    decreases |items|
  {
    if items != [] {
      var it := items[0];
      var t := Process(entries, items, folderPath, recycle);
      if !Present(entries, it.name) {
        CleanRunRemovesAll(entries, items[1..], folderPath, recycle);
        if Present(t.remaining, it.name) {
          PresentWithin(t.remaining, entries, it.name);
        }
      } else if recycle(PathJoin(folderPath, it.name), it.isDirectory) {
        var e := Remove(entries, it.name);
        CleanRunRemovesAll(e, items[1..], folderPath, recycle);
        if Present(t.remaining, it.name) {
          PresentWithin(t.remaining, e, it.name);
        }
      }
      assert forall k :: 1 <= k < |items| ==> items[k] == items[1..][k - 1];
    }
  }

  /** A root entry whose name matches no item is left alone. */
  lemma {:induction false} OthersKept(entries: seq<string>, items: seq<Item>, folderPath: string,
                                     recycle: (string, bool) -> bool, x: string)
    requires x in entries
    requires forall k :: 0 <= k < |items| ==> Lower(x) != Lower(items[k].name)
    ensures x in Process(entries, items, folderPath, recycle).remaining
    decreases |items|
  {
    if items != [] {
      var it := items[0];
      if Present(entries, it.name) && recycle(PathJoin(folderPath, it.name), it.isDirectory) {
        OthersKept(Remove(entries, it.name), items[1..], folderPath, recycle, x);
      } else {
        OthersKept(entries, items[1..], folderPath, recycle, x);
      }
    }
  }

  /**
   * How many of the first `n` items exist when their turn comes, that is, in
   * the folder as the items before them have left it.
   */
  function AtTurnCount(entries: seq<string>, items: seq<Item>, folderPath: string,
                       recycle: (string, bool) -> bool, n: nat): (c: nat)
    requires n <= |items|
    ensures c <= n
  {
    if n == 0 then 0
    else
      var before := Process(entries, items[..n - 1], folderPath, recycle).remaining;
      AtTurnCount(entries, items, folderPath, recycle, n - 1) + (if Present(before, items[n - 1].name) then 1 else 0)
  }

  /** How many of the first `n` items exist in the folder before the pass starts. */
  function PresentCount(entries: seq<string>, items: seq<Item>, n: nat): (c: nat)
    requires n <= |items|
    ensures c <= n
  {
    if n == 0 then 0
    else PresentCount(entries, items, n - 1) + (if Present(entries, items[n - 1].name) then 1 else 0)
  }

  /** No two items name the same entry on a file system that ignores case. */
  predicate DistinctNames(items: seq<Item>)
  {
    forall i, j :: 0 <= i < j < |items| ==> Lower(items[i].name) != Lower(items[j].name)
  }

  /** Every item that exists when its turn comes is counted once, as deleted or as an error. */
  lemma {:induction false} CountedAtTurnPrefix(entries: seq<string>, items: seq<Item>, folderPath: string,
                                              recycle: (string, bool) -> bool, n: nat)
    requires n <= |items|
    ensures var t := Process(entries, items[..n], folderPath, recycle);
      t.deleted + t.errors == AtTurnCount(entries, items, folderPath, recycle, n)
  {
    if n > 0 {
      CountedAtTurnPrefix(entries, items, folderPath, recycle, n - 1);
      var it := items[n - 1];
      assert items[..n] == items[..n - 1] + [it];
      ProcessAppend(entries, items[..n - 1], [it], folderPath, recycle);
      var e := Process(entries, items[..n - 1], folderPath, recycle).remaining;
      assert [it][1..] == [];
      var t1 := Process(e, [it], folderPath, recycle);
      assert t1.deleted + t1.errors == if Present(e, it.name) then 1 else 0;
    }
  }

  /** `deleted + errors` is the number of items that exist when their turn comes. */
  lemma CountedAtTurn(entries: seq<string>, items: seq<Item>, folderPath: string, recycle: (string, bool) -> bool)
    ensures var t := Process(entries, items, folderPath, recycle);
      t.deleted + t.errors == AtTurnCount(entries, items, folderPath, recycle, |items|)
  {
    CountedAtTurnPrefix(entries, items, folderPath, recycle, |items|);
    assert items[..|items|] == items;
  }

  /** With case-distinct names, an item exists at its turn exactly when it existed at the start. */
  lemma PresentAtTurn(entries: seq<string>, items: seq<Item>, folderPath: string,
                      recycle: (string, bool) -> bool, k: nat)
    requires DistinctNames(items) && k < |items|
    ensures Present(Process(entries, items[..k], folderPath, recycle).remaining, items[k].name)
            <==> Present(entries, items[k].name)
  {
    var name := items[k].name;
    var rem := Process(entries, items[..k], folderPath, recycle).remaining;
    if Present(entries, name) {
      var i :| 0 <= i < |entries| && Lower(entries[i]) == Lower(name);
      assert forall j :: 0 <= j < k ==> Lower(entries[i]) != Lower(items[..k][j].name);
      OthersKept(entries, items[..k], folderPath, recycle, entries[i]);
      var j :| 0 <= j < |rem| && rem[j] == entries[i];
    }
    if Present(rem, name) {
      PresentWithin(rem, entries, name);
    }
  }

  lemma {:induction false} AtTurnIsPresent(entries: seq<string>, items: seq<Item>, folderPath: string,
                                          recycle: (string, bool) -> bool, n: nat)
    requires DistinctNames(items) && n <= |items|
    ensures AtTurnCount(entries, items, folderPath, recycle, n) == PresentCount(entries, items, n)
  {
    if n > 0 {
      AtTurnIsPresent(entries, items, folderPath, recycle, n - 1);
      PresentAtTurn(entries, items, folderPath, recycle, n - 1);
    }
  }

  /** With case-distinct names, `deleted + errors` is the number of items found in the folder at the start. */
  lemma CountedPresent(entries: seq<string>, items: seq<Item>, folderPath: string, recycle: (string, bool) -> bool)
    requires DistinctNames(items)
    ensures var t := Process(entries, items, folderPath, recycle);
      t.deleted + t.errors == PresentCount(entries, items, |items|)
  {
    CountedAtTurn(entries, items, folderPath, recycle);
    AtTurnIsPresent(entries, items, folderPath, recycle, |items|);
  }

  /**
   * Two items naming the same entry in different case: the second has gone
   * with the first, so only one is counted although both existed at the start.
   */
  lemma CaseTwinCountedOnce()
    ensures var items := [Item("Game.exe", false), Item("game.exe", false)];
      var t := Process(["Game.exe"], items, "C:/g", (p, d) => true);
      t.deleted == 1 && t.errors == 0 && PresentCount(["Game.exe"], items, 2) == 2
  {
    var items := [Item("Game.exe", false), Item("game.exe", false)];
    var entries := ["Game.exe"];
    assert Lower(entries[0]) == Lower(items[0].name) == Lower(items[1].name);
    assert Present(entries, items[0].name) && Present(entries, items[1].name);
    assert Remove(entries, items[0].name) == [];
    assert items[1..][1..] == [];
  }

  /** The folder being slimmed: its path and the names at its root. */
  class GameFolder {
    const path: string
    /** False when listing the root fails; the names still answer existence checks. */
    const listable: bool
    var entries: seq<string>

    constructor (path: string, listable: bool, entries: seq<string>)
      ensures this.path == path && this.listable == listable && this.entries == entries
    {
      this.path := path;
      this.listable := listable;
      this.entries := entries;
    }

    function Listing(): Option<seq<string>>
      reads this
    {
      if listable then Some(entries) else None
    }

    /** The fixed files, then each other executable at the root that is not an uninstaller. */
    method BuildManifest() returns (files: seq<string>)
      ensures files == Manifest(Listing())
    {
      files := FixedFiles;
      if listable {
        var rootFiles := entries;
        var i := 0;
        while i < |rootFiles|
          invariant 0 <= i <= |rootFiles|
          invariant AddExes(files, rootFiles[i..]) == AddExes(FixedFiles, rootFiles)
        {
          var file := rootFiles[i];
          AddExesStep(files, rootFiles, i);
          if EndsWith(Lower(file), ".exe") {
            if !StartsWith(Lower(file), "unins") && file !in files {
              files := files + [file];
            }
          }
          i := i + 1;
        }
        assert rootFiles[i..] == [];
      }
    }

    method RecycleOne(item: Item, recycle: (string, bool) -> bool, deleted: nat, errors: nat)
      returns (deleted': nat, errors': nat)
      modifies this
      ensures var t := Process(old(entries), [item], path, recycle);
        deleted' == deleted + t.deleted && errors' == errors + t.errors && entries == t.remaining
    {
      deleted', errors' := deleted, errors;
      if Present(entries, item.name) {
        if recycle(PathJoin(path, item.name), item.isDirectory) {
          entries := Remove(entries, item.name);
          deleted' := deleted + 1;
        } else {
          errors' := errors + 1;
        }
      }
    }

    /** One of the two loops: each item in order, adding to the two counters. */
    method RecycleAll(items: seq<Item>, recycle: (string, bool) -> bool, deleted: nat, errors: nat)
      returns (deleted': nat, errors': nat)
      modifies this
      ensures var t := Process(old(entries), items, path, recycle);
        deleted' == deleted + t.deleted && errors' == errors + t.errors && entries == t.remaining
    {
      deleted', errors' := deleted, errors;
      ghost var start := entries;
      var i := 0;
      while i < |items|
        invariant 0 <= i <= |items|
        invariant deleted' >= deleted && errors' >= errors
        invariant var t := Process(entries, items[i..], path, recycle);
          Process(start, items, path, recycle) == Tally(deleted' - deleted + t.deleted, errors' - errors + t.errors, t.remaining)
      {
        assert items[i..] == [items[i]] + items[i + 1..];
        ProcessStep(entries, items[i], items[i + 1..], path, recycle);
        deleted', errors' := RecycleOne(items[i], recycle, deleted', errors');
        i := i + 1;
      }
      assert items[i..] == [];
    }

    /**
     * Recycles every listed file, then every runtime folder, that exists,
     * counting successes and failures; `recycle` stands for the PowerShell
     * call and reports whether it succeeded.
     */
    method Clean(recycle: (string, bool) -> bool) returns (deleted: nat, errors: nat, outcome: Outcome)
      modifies this
      ensures var t := Process(old(entries), FileItems(Manifest(old(Listing()))) + FolderItems, path, recycle);
        deleted == t.deleted && errors == t.errors && entries == t.remaining
      ensures outcome == OutcomeOf(deleted, errors)
    {
      var files := BuildManifest();
      var fileItems := FileItems(files);
      ProcessAppend(entries, fileItems, FolderItems, path, recycle);
      deleted, errors := RecycleAll(fileItems, recycle, 0, 0);
      deleted, errors := RecycleAll(FolderItems, recycle, deleted, errors);
      outcome := OutcomeOf(deleted, errors);
    }
  }
}

=== FILE: common.dfy ===
/** Optional values and results with an error, as the launcher's code uses `null` and exceptions. */
module Common {

  datatype Option<T> = None | Some(value: T)

  datatype Result<T, E> = Ok(value: T) | Err(error: E)
}

=== FILE: filter.dfy ===
/**
 * The search box and the slim filter over the cards of the game grid: a card
 * shows when its title or folder name contains the query (both ignoring case)
 * and its slim state fits the chosen filter.
 */
module Filter {
  import opened Text
  import opened Snapshot
  import opened Metadata

  /** What a card keeps for filtering: its title, its folder's base name and whether the game is slim. */
  datatype Card = Card(title: string, folder: string, isSlim: bool)

  predicate IsSeparator(c: char)
  {
    c == '\\' || c == '/'
  }

  /** The last component of a path that does not end in a separator. */
  function Basename(p: string): (r: string)
    ensures |r| <= |p| && r == p[|p| - |r|..]
    ensures forall i :: 0 <= i < |r| ==> !IsSeparator(r[i])
    ensures |r| == |p| || IsSeparator(p[|p| - |r| - 1])
    decreases |p|
  {
    if p == [] || IsSeparator(p[|p| - 1]) then []
    else Basename(p[..|p| - 1]) + [p[|p| - 1]]
  }

  function CardFor(g: GameRecord): Card
  {
    Card(g.title, Basename(g.folderPath), g.isSlim)
  }

  /** The search text as it is compared: lower-cased, then trimmed. */
  function Query(searchValue: string): string
  {
    Trim(Lower(searchValue))
  }

  predicate TextMatch(card: Card, query: string)
  {
    Contains(Lower(card.title), query) || Contains(Lower(card.folder), query)
  }

  /** `"slim"` hides full games, `"full"` hides slim ones, and any other value hides nothing. */
  predicate TypeMatch(isSlim: bool, filterType: string)
  {
    !(filterType == "slim" && !isSlim) && !(filterType == "full" && isSlim)
  }

  predicate Shown(card: Card, query: string, filterType: string)
  {
    TextMatch(card, query) && TypeMatch(card.isSlim, filterType)
  }

  predicate Visible(card: Card, searchValue: string, filterType: string)
  {
    Shown(card, Query(searchValue), filterType)
  }

  /** A card is visible exactly when the query occurs at some index of its lower-cased title or folder name, and its type fits. */
  lemma VisibleIffOccurs(card: Card, searchValue: string, filterType: string)
    ensures Visible(card, searchValue, filterType) <==>
      TypeMatch(card.isSlim, filterType)
      && ((exists i :: OccursAt(Lower(card.title), Query(searchValue), i))
          || (exists i :: OccursAt(Lower(card.folder), Query(searchValue), i)))
  {
    ContainsIffOccurs(Lower(card.title), Query(searchValue));
    ContainsIffOccurs(Lower(card.folder), Query(searchValue));
  }

  /** Hides every card that does not match and shows every card that does. */
  method ApplyFilters(cards: seq<Card>, hidden: array<bool>, searchValue: string, filterType: string)
    requires hidden.Length == |cards|
    modifies hidden
    ensures forall i :: 0 <= i < |cards| ==> hidden[i] == !Visible(cards[i], searchValue, filterType)
  {
    var query := Query(searchValue);
    MarkCards(cards, hidden, query, filterType);
  }

  /** The loop over the cards, with the query already lower-cased and trimmed. */
  method MarkCards(cards: seq<Card>, hidden: array<bool>, query: string, filterType: string)
    requires hidden.Length == |cards|
    modifies hidden
    ensures forall i :: 0 <= i < |cards| ==> hidden[i] == !Shown(cards[i], query, filterType)
  {
    ghost var expected := seq(|cards|, k requires 0 <= k < |cards| => !Shown(cards[k], query, filterType));
    var i := 0;
    while i < |cards|
      invariant 0 <= i <= |cards|
      invariant hidden[..i] == expected[..i]
    {
      var card := cards[i];
      var matchText := TextMatch(card, query);
      var matchType := true;
      if filterType == "slim" && !card.isSlim {
        matchType := false;
      }
      if filterType == "full" && card.isSlim {
        matchType := false;
      }
      hidden[i] := !(matchText && matchType);
      assert hidden[..i + 1] == hidden[..i] + [hidden[i]];
      i := i + 1;
    }
    assert hidden[..] == hidden[..i];
    forall k | 0 <= k < |cards| ensures hidden[k] == expected[k] {
      assert hidden[k] == hidden[..][k];
    }
  }

  /** A game's card carries the name of its own folder. */
  lemma CardFolderIsName(dir: string, name: string)
    requires forall i :: 0 <= i < |name| ==> !IsSeparator(name[i])
    ensures Basename(PathJoin(dir, name)) == name
  {
    assert Native(name) == name;
    BasenameAfter(dir + [Sep], name);
  }

  /** The last component of a path that ends in `name`, after a separator, is `name`. */
  lemma {:induction false} BasenameAfter(head: string, name: string)
    requires head != [] && IsSeparator(head[|head| - 1])
    requires forall i :: 0 <= i < |name| ==> !IsSeparator(name[i])
    ensures Basename(head + name) == name
    decreases |name|
  {
    var p := head + name;
    if name == [] {
      assert p == head;
    } else {
      var q := name[..|name| - 1];
      assert p[..|p| - 1] == head + q;
      assert p[|p| - 1] == name[|name| - 1];
      BasenameAfter(head, q);
      assert q + [name[|name| - 1]] == name;
    }
  }

  /** With an empty search and the `"all"` filter every card shows. */
  lemma EmptySearchShowsAll(card: Card, searchValue: string)
    requires forall i :: 0 <= i < |searchValue| ==> IsSpace(searchValue[i])
    ensures Visible(card, searchValue, "all")
  {
    var l := Lower(searchValue);
    assert forall i :: 0 <= i < |l| ==> IsSpace(l[i]) by {
      forall i | 0 <= i < |l| ensures IsSpace(l[i]) {
        assert l[i] == LowerChar(searchValue[i]);
      }
    }
    assert Query(searchValue) == [];
  }

  /** The cards shown under `"all"` are split between `"slim"` and `"full"`, with none in both. */
  lemma AllSplitsIntoSlimAndFull(card: Card, searchValue: string)
    ensures Visible(card, searchValue, "all") <==>
      Visible(card, searchValue, "slim") || Visible(card, searchValue, "full")
    ensures !(Visible(card, searchValue, "slim") && Visible(card, searchValue, "full"))
  {
  }

  /** Searching ignores letter case. */
  lemma SearchIgnoresCase(card: Card, searchValue: string, filterType: string)
    ensures Visible(card, Upper(searchValue), filterType) == Visible(card, searchValue, filterType)
    ensures Visible(card, Lower(searchValue), filterType) == Visible(card, searchValue, filterType)
  {
    LowerUpper(searchValue);
    assert Lower(Lower(searchValue)) == Lower(searchValue);
  }

  /** Typing a card's own title finds it. */
  lemma FoundByTitle(card: Card, filterType: string)
    requires TypeMatch(card.isSlim, filterType)
    ensures Visible(card, card.title, filterType)
  {
    TrimContained(Lower(card.title));
  }
}

=== FILE: launch.dfy ===
/**
 * What launching a web-based game computes before the game view opens:
 * the `file:///` address of its entry page, the `NODE_PATH` value the game
 * inherits, and the window size and full-screen flag.
 */
module Launch {
  import opened Common
  import opened Text
  import opened Snapshot
  import opened Settings

  datatype WindowSize = WindowSize(width: int, height: int, fullscreen: bool)

  /**
   * The launcher's settings, overridden by the game's own `window` block:
   * a width or height that is missing or zero does not override, a
   * full-screen flag that is present does.
   */
  function ResolveWindow(s: AppSettings, config: Option<WindowConfig>): (w: WindowSize)
    ensures config.None? ==> w == WindowSize(s.webWidth, s.webHeight, s.webFullscreen)
    ensures w.width == s.webWidth || (config.Some? && config.value.width == Some(w.width) && w.width != 0)
    ensures w.height == s.webHeight || (config.Some? && config.value.height == Some(w.height) && w.height != 0)
    ensures config.Some? && config.value.width.Some? && config.value.width.value != 0 ==>
      w.width == config.value.width.value
    ensures config.Some? && config.value.height.Some? && config.value.height.value != 0 ==>
      w.height == config.value.height.value
    ensures w.fullscreen == if config.Some? && config.value.fullscreen.Some? then config.value.fullscreen.value
                            else s.webFullscreen
  {
    var width := s.webWidth;
    var height := s.webHeight;
    var fullscreen := s.webFullscreen;
    match config
    case None => WindowSize(width, height, fullscreen)
    case Some(c) =>
      WindowSize(
        if c.width.Some? && c.width.value != 0 then c.width.value else width,
        if c.height.Some? && c.height.value != 0 then c.height.value else height,
        if c.fullscreen.Some? then c.fullscreen.value else fullscreen)
  }

  /** Sizes saved through the settings dialog never give a zero-sized window. */
  lemma WindowNeverZero(s: AppSettings, config: Option<WindowConfig>)
    requires s.webWidth != 0 && s.webHeight != 0
    ensures ResolveWindow(s, config).width != 0 && ResolveWindow(s, config).height != 0
  {
  }

  /** `p.replace(/\\/g, '/')`. */
  function ToSlashes(p: string): (r: string)
    ensures |r| == |p|
    ensures forall i :: 0 <= i < |p| ==> r[i] == (if p[i] == '\\' then '/' else p[i])
  {
    seq(|p|, i requires 0 <= i < |p| => if p[i] == '\\' then '/' else p[i])
  }

  const UrlScheme := "file:///"

  /** The address of a game's entry page. */
  function FileUrl(fullEntryPath: string): (u: string)
    ensures UrlScheme <= u && |u| == |UrlScheme| + |fullEntryPath|
    ensures forall i :: |UrlScheme| <= i < |u| ==> u[i] != '\\'
    ensures forall i :: 0 <= i < |fullEntryPath| ==>
      u[|UrlScheme| + i] == (if fullEntryPath[i] == '\\' then '/' else fullEntryPath[i])
  {
    UrlScheme + ToSlashes(fullEntryPath)
  }

  /** Turning a joined path's backslashes into slashes leaves an entry without backslashes as written. */
  lemma JoinedSlashes(folderPath: string, entryPoint: string)
    requires '\\' !in entryPoint
    ensures ToSlashes(PathJoin(folderPath, entryPoint)) == ToSlashes(folderPath) + "/" + entryPoint
  {
    var p := PathJoin(folderPath, entryPoint);
    var n := Native(entryPoint);
    var expected := ToSlashes(folderPath) + "/" + entryPoint;
    assert p == folderPath + [Sep] + n;
    forall i | 0 <= i < |p| ensures ToSlashes(p)[i] == expected[i] {
      if i < |folderPath| {
        assert p[i] == folderPath[i];
      } else if i == |folderPath| {
        assert p[i] == Sep;
      } else {
        var j := i - |folderPath| - 1;
        assert p[i] == n[j] && expected[i] == entryPoint[j];
        assert entryPoint[j] != '\\';
      }
    }
  }

  /** The entry page's address is the folder's path with forward slashes, then the entry as written. */
  lemma EntryUrl(folderPath: string, entryPoint: string)
    requires '\\' !in entryPoint
    ensures FileUrl(PathJoin(folderPath, entryPoint)) == UrlScheme + ToSlashes(folderPath) + "/" + entryPoint
  {
    var slashed := ToSlashes(folderPath);
    calc {
      FileUrl(PathJoin(folderPath, entryPoint));
      UrlScheme + ToSlashes(PathJoin(folderPath, entryPoint));
      { JoinedSlashes(folderPath, entryPoint); }
      UrlScheme + (slashed + "/" + entryPoint);
      { ConcatAssoc(UrlScheme, slashed + "/", entryPoint); }
      UrlScheme + (slashed + "/") + entryPoint;
      { ConcatAssoc(UrlScheme, slashed, "/"); }
      UrlScheme + slashed + "/" + entryPoint;
    }
  }

  /**
   * The list `NODE_PATH` holds after the launcher adds its own module
   * folder: the existing entries, split on the delimiter (none when unset
   * or empty), with `dev` appended unless already there.
   */
  function NodePathList(env: Option<string>, dev: string, delim: char): (r: seq<string>)
    ensures dev in r
    ensures env.Some? && env.value != "" ==> Split(env.value, delim) <= r
  {
    var list := if env.Some? && env.value != "" then Split(env.value, delim) else [];
    if dev in list then list else list + [dev]
  }

  function UpdatedNodePath(env: Option<string>, dev: string, delim: char): string
  {
    Join(NodePathList(env, dev, delim), delim)
  }

  /** The new value: `dev` alone, the old value unchanged, or the old value with `dev` appended. */
  lemma NodePathUpdate(env: Option<string>, dev: string, delim: char)
    ensures env.None? || env.value == "" ==> UpdatedNodePath(env, dev, delim) == dev
    ensures env.Some? && env.value != "" && dev in Split(env.value, delim) ==>
      UpdatedNodePath(env, dev, delim) == env.value
    ensures env.Some? && env.value != "" && dev !in Split(env.value, delim) ==>
      UpdatedNodePath(env, dev, delim) == env.value + [delim] + dev
  {
    if env.Some? && env.value != "" {
      JoinSplit(env.value, delim);
      JoinSnoc(Split(env.value, delim), dev, delim);
    } else {
      assert [] + [dev] == [dev];
    }
  }

  lemma JoinEmpty(parts: seq<string>, d: char)
    requires |parts| >= 1 && Join(parts, d) == ""
    ensures |parts| == 1 && parts[0] == ""
  {
  }

  /** Updating `NODE_PATH` a second time with the same development path changes nothing. */
  lemma NodePathIdempotent(env: Option<string>, dev: string, delim: char)
    requires delim !in dev
    ensures UpdatedNodePath(Some(UpdatedNodePath(env, dev, delim)), dev, delim) == UpdatedNodePath(env, dev, delim)
  {
    var list := NodePathList(env, dev, delim);
    var r := Join(list, delim);
    assert forall k :: 0 <= k < |list| ==> delim !in list[k];
    if r == "" {
      JoinEmpty(list, delim);
      assert dev == "";
      NodePathUpdate(Some(r), dev, delim);
    } else {
      SplitJoin(list, delim);
      NodePathUpdate(Some(r), dev, delim);
      JoinSplit(r, delim);
    }
  }
}

=== FILE: legacy.dfy ===
/**
 * `checkAndAddGame` (verify_logic.js): the older classifier. Any `index.html` makes a web game,
 * a bundled `Game.exe` or `RPG_RT.exe` makes a legacy one, and `System.json` is read only when
 * the title still looks like a placeholder. There is no ignore list and no product-code stripping.
 */
module Legacy {
  import opened Common
  import opened Snapshot
  import opened Metadata

  /** What `checkAndAddGame` reports for a folder it accepts. */
  datatype LegacyRecord = LegacyRecord(title: string, entryPoint: string, engine: EngineType)

  /** The entry point, by the order HTML at the root, HTML under `www/`, `Game.exe`, `RPG_RT.exe`. */
  function LegacyEntry(f: Folder): (r: Option<Classification>)
    ensures r.Some? ==> Has(f, r.value.entryPoint)
    ensures r.None? <==> !Has(f, "index.html") && !Has(f, "www/index.html") && !Has(f, "Game.exe") && !Has(f, "RPG_RT.exe")
  {
    if Has(f, "index.html") then Some(Classification(Web, "index.html"))
    else if Has(f, "www/index.html") then Some(Classification(Web, "www/index.html"))
    else if Has(f, "Game.exe") then Some(Classification(Exe, "Game.exe"))
    else if Has(f, "RPG_RT.exe") then Some(Classification(Exe, "RPG_RT.exe"))
    else None
  }

  /** The four entry points, in the order they are tried; the first that exists decides. */
  lemma LegacyEntryPrecedence(f: Folder)
    ensures Has(f, "index.html") ==> LegacyEntry(f) == Some(Classification(Web, "index.html"))
    ensures !Has(f, "index.html") && Has(f, "www/index.html") ==>
              LegacyEntry(f) == Some(Classification(Web, "www/index.html"))
    ensures !Has(f, "index.html") && !Has(f, "www/index.html") && Has(f, "Game.exe") ==>
              LegacyEntry(f) == Some(Classification(Exe, "Game.exe"))
    ensures !Has(f, "index.html") && !Has(f, "www/index.html") && !Has(f, "Game.exe") && Has(f, "RPG_RT.exe") ==>
              LegacyEntry(f) == Some(Classification(Exe, "RPG_RT.exe"))
  {
  }

  /** Titles that send the lookup on to `System.json`, besides the folder name itself. */
  const Placeholders: seq<string> := ["rmmz-game", "rpg-maker-mv", "Game"]

  /** The title after the `package.json` step: a non-empty `name` replaces the folder name. */
  function PackageStepTitle(f: Folder, folderName: string): (r: string)
    ensures r == folderName || (Has(f, "package.json") && f.packageJson.PackageData? && f.packageJson.name == Some(r) && r != [])
    ensures Has(f, "package.json") && f.packageJson.PackageData? && f.packageJson.name.Some? && f.packageJson.name.value != [] ==>
              r == f.packageJson.name.value
  {
    if Has(f, "package.json") && f.packageJson.PackageData? && f.packageJson.name.Some? && f.packageJson.name.value != []
    then f.packageJson.name.value
    else folderName
  }

  /** A `System.json` at `p` that exists, parses and has a non-empty `gameTitle`. */
  predicate SystemNamed(f: Folder, p: string)
  {
    Has(f, p) && SystemAt(f, p).SystemData? && SystemAt(f, p).gameTitle.Some? && SystemAt(f, p).gameTitle.value != []
  }

  /** The lookup goes on past `p`: the file is absent, or parses without a usable `gameTitle`. */
  predicate SystemPasses(f: Folder, p: string)
  {
    !Has(f, p) || (SystemAt(f, p).SystemData? && !(SystemAt(f, p).gameTitle.Some? && SystemAt(f, p).gameTitle.value != []))
  }

  /** The lookup ends at `p`: the file exists and does not parse. */
  predicate SystemStops(f: Folder, p: string)
  {
    Has(f, p) && SystemAt(f, p).SystemUnparsable?
  }

  predicate SystemPassesBetween(f: Folder, paths: seq<string>, i: nat, k: nat)
    requires k <= |paths|
  {
    forall j :: i <= j < k ==> SystemPasses(f, paths[j])
  }

  /**
   * The `System.json` loop: the first non-empty `gameTitle` among the paths that exist.
   * A file that exists but does not parse throws out of the loop, so the later paths are not tried.
   */
  function LegacySystemTitle(f: Folder, paths: seq<string>): (r: Option<string>)
    ensures r.Some? ==> r.value != []
    ensures r.Some? ==> exists k :: 0 <= k < |paths| && SystemNamed(f, paths[k]) && SystemPassesBetween(f, paths, 0, k)
                                    && SystemAt(f, paths[k]).gameTitle == r
    ensures r.None? <==> SystemPassesBetween(f, paths, 0, |paths|)
                         || exists k :: 0 <= k < |paths| && SystemStops(f, paths[k]) && SystemPassesBetween(f, paths, 0, k)
  {
    LegacySystemTitleFrom(f, paths, 0)
  }

  /** The lookup over `paths[i..]`. */
  function LegacySystemTitleFrom(f: Folder, paths: seq<string>, i: nat): (r: Option<string>)
    requires i <= |paths|
    ensures r.Some? ==> r.value != []
    ensures r.Some? ==> exists k :: i <= k < |paths| && SystemNamed(f, paths[k]) && SystemPassesBetween(f, paths, i, k)
                                    && SystemAt(f, paths[k]).gameTitle == r
    ensures r.None? ==> SystemPassesBetween(f, paths, i, |paths|)
                        || exists k :: i <= k < |paths| && SystemStops(f, paths[k]) && SystemPassesBetween(f, paths, i, k)
    ensures SystemPassesBetween(f, paths, i, |paths|) ==> r.None?
    ensures forall k :: i <= k < |paths| && SystemStops(f, paths[k]) && SystemPassesBetween(f, paths, i, k) ==> r.None?
    decreases |paths| - i
  {
    if i == |paths| then None
    else if !Has(f, paths[i]) then LegacySystemTitleFrom(f, paths, i + 1)
    else match SystemAt(f, paths[i])
      case SystemUnparsable => None
      case SystemData(t) =>
        if t.Some? && t.value != [] then t
        else
          var r := LegacySystemTitleFrom(f, paths, i + 1);
          assert forall k :: i + 1 <= k <= |paths| ==>
            (SystemPassesBetween(f, paths, i, k) <==> SystemPassesBetween(f, paths, i + 1, k));
          r
  }

  predicate LooksLikePlaceholder(title: string, folderName: string)
  {
    title in Placeholders || title == folderName
  }

  /** The title `checkAndAddGame` reports. */
  function LegacyTitle(f: Folder, folderName: string): (r: string)
    ensures !LooksLikePlaceholder(PackageStepTitle(f, folderName), folderName) ==> r == PackageStepTitle(f, folderName)
    ensures LooksLikePlaceholder(PackageStepTitle(f, folderName), folderName) ==>
              r == (if LegacySystemTitle(f, SystemJsonPaths).Some? then LegacySystemTitle(f, SystemJsonPaths).value
                    else PackageStepTitle(f, folderName))
  {
    var title := PackageStepTitle(f, folderName);
    if LooksLikePlaceholder(title, folderName) then
      match LegacySystemTitle(f, SystemJsonPaths)
      case Some(t) => t
      case None => title
    else title
  }

  /** A usable `package.json` name that is neither a placeholder nor the folder name is kept. */
  lemma PackageNameKept(f: Folder, folderName: string, name: string)
    requires Has(f, "package.json") && f.packageJson.PackageData? && f.packageJson.name == Some(name)
    requires name != [] && name !in Placeholders && name != folderName
    ensures LegacyTitle(f, folderName) == name
  {
  }

  /** A placeholder name gives way to the first non-empty `gameTitle` of the lookup. */
  lemma PlaceholderTakesSystemTitle(f: Folder, folderName: string, name: string, k: nat)
    requires Has(f, "package.json") && f.packageJson.PackageData? && f.packageJson.name == Some(name)
    requires name in Placeholders
    requires k < |SystemJsonPaths| && SystemNamed(f, SystemJsonPaths[k]) && SystemPassesBetween(f, SystemJsonPaths, 0, k)
    ensures LegacyTitle(f, folderName) == SystemAt(f, SystemJsonPaths[k]).gameTitle.value
  {
    assert name != [];
    if k == 0 {
      assert LegacySystemTitleFrom(f, SystemJsonPaths, 0) == SystemAt(f, SystemJsonPaths[0]).gameTitle;
    } else {
      assert SystemPasses(f, SystemJsonPaths[0]);
      assert LegacySystemTitleFrom(f, SystemJsonPaths, 1) == SystemAt(f, SystemJsonPaths[1]).gameTitle;
    }
  }

  /** The record `checkAndAddGame(folderPath, folderName)` logs as found, or None when it logs the folder as ignored. */
  function LegacyGame(folderName: string, f: Folder): Option<LegacyRecord>
  {
    match LegacyEntry(f)
    case None => None
    case Some(c) => Some(LegacyRecord(LegacyTitle(f, folderName), c.entryPoint, c.engine))
  }

  /** The `System.json` loop with its `break`, under the try that a parse failure leaves. */
  method FindLegacySystemTitle(f: Folder) returns (title: Option<string>)
    ensures title == LegacySystemTitle(f, SystemJsonPaths)
  {
    title := None;
    var k := 0;
    while k < |SystemJsonPaths|
      invariant 0 <= k <= |SystemJsonPaths|
      invariant title == None
      invariant LegacySystemTitle(f, SystemJsonPaths) == LegacySystemTitleFrom(f, SystemJsonPaths, k)
    {
      var sysPath := SystemJsonPaths[k];
      if Has(f, sysPath) {
        var sys := SystemAt(f, sysPath);
        if sys.SystemUnparsable? {
          // JSON.parse throws; the catch sits outside the loop
          break;
        }
        if sys.gameTitle.Some? && sys.gameTitle.value != [] {
          title := sys.gameTitle;
          break;
        }
      }
      k := k + 1;
    }
  }

  /** `checkAndAddGame`, statement by statement. */
  method CheckAndAddGame(folderName: string, f: Folder) returns (r: Option<LegacyRecord>)
    ensures r == LegacyGame(folderName, f)
  {
    var entryPoint: Option<string> := None;
    var engine := Unknown;
    if Has(f, "index.html") {
      entryPoint, engine := Some("index.html"), Web;
    } else if Has(f, "www/index.html") {
      entryPoint, engine := Some("www/index.html"), Web;
    } else {
      if Has(f, "Game.exe") {
        entryPoint, engine := Some("Game.exe"), Exe;
      } else if Has(f, "RPG_RT.exe") {
        entryPoint, engine := Some("RPG_RT.exe"), Exe;
      }
    }
    if entryPoint.None? {
      return None;
    }

    var title := folderName;
    if Has(f, "package.json") && f.packageJson.PackageData? {
      var pkg := f.packageJson;
      if pkg.name.Some? && pkg.name.value != [] {
        title := pkg.name.value;
      }
    }

    if title == "rmmz-game" || title == "rpg-maker-mv" || title == "Game" || title == folderName {
      var found := FindLegacySystemTitle(f);
      if found.Some? {
        title := found.value;
      }
    }
    r := Some(LegacyRecord(title, entryPoint.value, engine));
  }

  /** A `System.json` that exists and does not parse ends the lookup, even when the next one has a title. */
  lemma UnparsableSystemJsonEndsLookup(f: Folder)
    requires Has(f, SystemJsonPaths[0]) && SystemAt(f, SystemJsonPaths[0]).SystemUnparsable?
    ensures LegacySystemTitle(f, SystemJsonPaths) == None
  {
  }

  /** main.js, by contrast, moves on to the next `System.json` after one that does not parse. */
  lemma MainSkipsUnparsableSystemJson(f: Folder, title: string)
    requires Has(f, SystemJsonPaths[0]) && SystemAt(f, SystemJsonPaths[0]).SystemUnparsable?
    requires Has(f, SystemJsonPaths[1]) && SystemAt(f, SystemJsonPaths[1]) == SystemData(Some(title))
    requires Text.Trim(title) != []
    ensures SystemTitle(f, SystemJsonPaths) == Some(title)
    ensures LegacySystemTitle(f, SystemJsonPaths) == None
  {
    assert SystemJsonPaths[1..][0] == SystemJsonPaths[1];
  }

  /**
   * Every folder main.js accepts, the older classifier accepts too; they open the same file except when
   * a root `index.html` is present and main.js settles on the Tyrano game under `www/`.
   */
  lemma LegacyAcceptsMainGames(folderPath: string, folderName: string, f: Folder)
    requires GameMetadata(folderPath, folderName, f).Some?
    ensures LegacyGame(folderName, f).Some?
    ensures var main := GameMetadata(folderPath, folderName, f).value;
            var earlier := LegacyGame(folderName, f).value;
            earlier.entryPoint == main.entryPoint
            || (Has(f, "index.html") && main.entryPoint == "www/index.html" && main.engine == Tyrano)
  {
    var c := Classify(f).value;
    assert GameMetadata(folderPath, folderName, f).value.entryPoint == c.entryPoint;
    assert GameMetadata(folderPath, folderName, f).value.engine == c.engine;
    EntryPointsAgree(f);
    var e := LegacyEntry(f).value;
    assert LegacyGame(folderName, f) == Some(LegacyRecord(LegacyTitle(f, folderName), e.entryPoint, e.engine));
  }

  lemma EntryPointsAgree(f: Folder)
    requires Classify(f).Some?
    ensures LegacyEntry(f).Some?
    ensures LegacyEntry(f).value.entryPoint == Classify(f).value.entryPoint
            || (Has(f, "index.html") && Classify(f).value == Classification(Tyrano, "www/index.html"))
  {
  }

  /** The folder `Legacy_Game` the test script creates: a lone `Game.exe`. */
  const LegacyGameFixture: Folder := Folder({"Game.exe"}, map[], map[], PackageUnparsable)

  /** The folder `Web_Game`: a lone `index.html`. */
  const WebGameFixture: Folder := Folder({"index.html"}, map[], map[], PackageUnparsable)

  /** The folder `MZ_Generic`: the MZ placeholder package name and a title in `data/System.json`. */
  const MZGenericFixture: Folder := Folder(
    {"index.html", "package.json", "data", "data/System.json"},
    map["data/System.json" := SystemData(Some("TRUE_MZ_TITLE"))],
    map[],
    PackageData(Some("rmmz-game"), None))

  /** What the test script's three folders give under the older classifier. */
  lemma LegacyFixtures()
    ensures LegacyGame("Legacy_Game", LegacyGameFixture) == Some(LegacyRecord("Legacy_Game", "Game.exe", Exe))
    ensures LegacyGame("Web_Game", WebGameFixture) == Some(LegacyRecord("Web_Game", "index.html", Web))
    ensures LegacyGame("MZ_Generic", MZGenericFixture) == Some(LegacyRecord("TRUE_MZ_TITLE", "index.html", Web))
  {
    var f := MZGenericFixture;
    assert !Has(f, SystemJsonPaths[0]);
    assert SystemJsonPaths[1..][0] == "data/System.json";
  }

  /** main.js accepts none of the three: none has an RPG Maker core script or a `tyrano` folder. */
  lemma MainRejectsFixtures(rootPath: string)
    ensures GameMetadata(PathJoin(rootPath, "Legacy_Game"), "Legacy_Game", LegacyGameFixture) == None
    ensures GameMetadata(PathJoin(rootPath, "Web_Game"), "Web_Game", WebGameFixture) == None
    ensures GameMetadata(PathJoin(rootPath, "MZ_Generic"), "MZ_Generic", MZGenericFixture) == None
  {
    LegacyFixtureUnclassified();
    WebFixtureUnclassified();
    MZFixtureUnclassified();
  }

  lemma LegacyFixtureUnclassified()
    ensures Classify(LegacyGameFixture).None?
  {
    assert !Has(LegacyGameFixture, "index.html") && !Has(LegacyGameFixture, "www/index.html");
  }

  lemma WebFixtureUnclassified()
    ensures Classify(WebGameFixture).None?
  {
    var f := WebGameFixture;
    assert !HasRootCore(f) && !Has(f, "tyrano") && !HasWwwCore(f);
    assert !Has(f, "www/index.html");
  }

  lemma MZFixtureUnclassified()
    ensures Classify(MZGenericFixture).None?
  {
    var f := MZGenericFixture;
    assert !HasRootCore(f) && !Has(f, "tyrano") && !HasWwwCore(f);
    assert !Has(f, "www/index.html");
  }
}

=== FILE: library.dfy ===
/**
 * The library view's state: the settings, the chosen library folder, the
 * per-folder cache of scan results, and the grid of game cards, which is
 * always shown in title order.
 */
module Library {
  import opened Common
  import opened Snapshot
  import opened Metadata
  import opened Scanner
  import opened Settings

  /** Titles compared character by character; a prefix comes first. */
  predicate TitleLe(a: string, b: string)
    decreases |a|
  {
    a == [] || (b != [] && (a[0] < b[0] || (a[0] == b[0] && TitleLe(a[1..], b[1..]))))
  }

  lemma {:induction false} TitleLeTotal(a: string, b: string)
    ensures TitleLe(a, b) || TitleLe(b, a)
    decreases |a|
  {
    if a != [] && b != [] && a[0] == b[0] {
      TitleLeTotal(a[1..], b[1..]);
    }
  }

  lemma {:induction false} TitleLeTransitive(a: string, b: string, c: string)
    requires TitleLe(a, b) && TitleLe(b, c)
    ensures TitleLe(a, c)
    decreases |a|
  {
    if a != [] && a[0] == b[0] && b[0] == c[0] {
      TitleLeTransitive(a[1..], b[1..], c[1..]);
    }
  }

  predicate SortedByTitle(gs: seq<GameRecord>)
  {
    forall i :: 0 <= i < |gs| - 1 ==> TitleLe(gs[i].title, gs[i + 1].title)
  }

  /** Places `g` before the first game whose title does not come before its own. */
  function Insert(g: GameRecord, gs: seq<GameRecord>): (r: seq<GameRecord>)
    requires SortedByTitle(gs)
    ensures SortedByTitle(r)
    ensures multiset(r) == multiset(gs) + multiset{g}
    ensures |r| == |gs| + 1 && (r[0] == g || (gs != [] && r[0] == gs[0]))
    decreases |gs|
  {
    if gs == [] || TitleLe(g.title, gs[0].title) then [g] + gs
    else
      TitleLeTotal(g.title, gs[0].title);
      var rest := Insert(g, gs[1..]);
      assert gs == [gs[0]] + gs[1..];
      [gs[0]] + rest
  }

  /** `games.sort((a, b) => a.title.localeCompare(b.title))`, with code-unit order for the comparison. */
  function SortByTitle(gs: seq<GameRecord>): (r: seq<GameRecord>)
    ensures SortedByTitle(r)
    ensures multiset(r) == multiset(gs)
    decreases |gs|
  {
    if gs == [] then []
    else
      assert gs == [gs[0]] + gs[1..];
      Insert(gs[0], SortByTitle(gs[1..]))
  }

  /** In a sorted list every title comes no later than every title after it. */
  lemma {:induction false} SortedPairwise(gs: seq<GameRecord>, i: int, j: int)
    requires SortedByTitle(gs) && 0 <= i <= j < |gs|
    ensures TitleLe(gs[i].title, gs[j].title)
    decreases j - i
  {
    if i == j {
      TitleLeReflexive(gs[i].title);
    } else {
      SortedPairwise(gs, i + 1, j);
      TitleLeTransitive(gs[i].title, gs[i + 1].title, gs[j].title);
    }
  }

  lemma {:induction false} TitleLeReflexive(a: string)
    ensures TitleLe(a, a)
    decreases |a|
  {
    if a != [] {
      TitleLeReflexive(a[1..]);
    }
  }

  /** Sorting a list that is already in title order leaves it as it is. */
  lemma {:induction false} SortKeepsSorted(gs: seq<GameRecord>)
    requires SortedByTitle(gs)
    ensures SortByTitle(gs) == gs
    decreases |gs|
  {
    if gs != [] {
      var tail := gs[1..];
      assert SortedByTitle(tail);
      SortKeepsSorted(tail);
      assert gs == [gs[0]] + tail;
    }
  }

  /** The storage key under which a library folder's games are cached. */
  function CacheKey(rootPath: string): (k: string)
    ensures |k| == |rootPath| + 10 && k[10..] == rootPath
  {
    "rpg_cache_" + rootPath
  }

  /** Different folders never share a cache entry. */
  lemma CacheKeyInjective(a: string, b: string)
    requires CacheKey(a) == CacheKey(b)
    ensures a == b
  {
    assert a == CacheKey(a)[10..];
  }

  /** What the status line reports. */
  datatype Status =
    | WaitingForLibrary
    | ShowingCache(count: nat)
    | Scanning(rootPath: string)
    | ScanFinished(count: nat)
    | ScanFailed

  class Launcher {
    var settings: AppSettings
    /** The settings as last saved to storage. */
    var savedSettings: Option<AppSettings>
    var libraryPath: Option<string>
    /** The library folder as last saved to storage. */
    var savedLibraryPath: Option<string>
    /** Storage entries holding scan results, by key. */
    var cache: map<string, seq<GameRecord>>
    /** The cards in the grid, in display order. */
    var grid: seq<GameRecord>
    var emptyState: bool
    var status: Status

    /** Every cached list is in title order. */
    predicate CacheSorted()
      reads this`cache
    {
      forall k :: k in cache ==> SortedByTitle(cache[k])
    }

    constructor (saved: Option<AppSettings>, savedPath: Option<string>, cache: map<string, seq<GameRecord>>)
      ensures settings == (if saved.Some? then saved.value else Defaults)
      ensures savedSettings == saved && libraryPath == savedPath && savedLibraryPath == savedPath
      ensures this.cache == cache && grid == [] && !emptyState && status == WaitingForLibrary
    {
      settings := if saved.Some? then saved.value else Defaults;
      savedSettings := saved;
      libraryPath := savedPath;
      savedLibraryPath := savedPath;
      this.cache := cache;
      grid := [];
      emptyState := false;
      status := WaitingForLibrary;
    }

    /**
     * The state after a scan of the library whose cache entry is `key`: a
     * successful scan replaces the grid and the cache entry with the sorted
     * result; a failed one leaves the cache alone and keeps the cached games
     * on show, or, when nothing was cached, falls back to the empty state,
     * whose status line asks for a library again.
     */
    predicate ShowsScan(key: string, scan: Result<seq<GameRecord>, ScanError>, before: map<string, seq<GameRecord>>)
      reads this`grid, this`cache, this`status, this`emptyState
    {
      match scan
      case Ok(games) =>
        grid == SortByTitle(games) && cache == before[key := grid]
        && status == ScanFinished(|games|) && !emptyState
      case Err(_) =>
        cache == before
        && grid == (if key in before then SortByTitle(before[key]) else [])
        && emptyState == (key !in before)
        && status == (if key in before then ScanFailed else WaitingForLibrary)
    }

    /** The state after loading `rootPath`, whose folder is `root`, with the given scan mode. */
    predicate Loaded(rootPath: string, root: Node, recursive: bool, before: map<string, seq<GameRecord>>)
      reads this`grid, this`cache, this`status, this`emptyState
    {
      ShowsScan(CacheKey(rootPath), LibraryScan(rootPath, root, recursive), before)
    }

    /** Shows the cached games for `rootPath` at once, then rescans the folder and updates grid and cache. */
    method LoadLibrary(rootPath: string, root: Node)
      modifies this
      ensures Loaded(rootPath, root, old(settings).recursiveScan, old(cache))
      ensures old(CacheSorted()) ==> CacheSorted()
      ensures unchanged(this`settings, this`savedSettings, this`libraryPath, this`savedLibraryPath)
    {
      var key := CacheKey(rootPath);
      ShowCached(rootPath, key);
      var scan := ScanLibrary(rootPath, root, settings.recursiveScan);
      ShowScan(key, scan);
    }

    /** Shows the games cached under `key`, if any, while the folder is being scanned. */
    method ShowCached(rootPath: string, key: string)
      modifies this`grid, this`status, this`emptyState
      ensures grid == (if key in cache then SortByTitle(cache[key]) else []) && !emptyState
      ensures status == (if key in cache then ShowingCache(|grid|) else Scanning(rootPath))
    {
      emptyState := false;
      if key in cache {
        var games := SortByTitle(cache[key]);
        grid := games;
        status := ShowingCache(|games|);
      } else {
        grid := [];
        status := Scanning(rootPath);
      }
    }

    /** Renders and caches a successful scan, or reports a failed one. */
    method ShowScan(key: string, scan: Result<seq<GameRecord>, ScanError>)
      requires grid == (if key in cache then SortByTitle(cache[key]) else []) && !emptyState
      modifies this
      ensures ShowsScan(key, scan, old(cache))
      ensures old(CacheSorted()) ==> CacheSorted()
      ensures unchanged(this`settings, this`savedSettings, this`libraryPath, this`savedLibraryPath)
    {
      match scan {
        case Ok(games) =>
          var sorted := SortByTitle(games);
          grid := sorted;
          cache := cache[key := sorted];
          status := ScanFinished(|games|);
        case Err(_) =>
          // with nothing cached, `showEmptyState` replaces the error message
          var cached := key in cache;
          status := if cached then ScanFailed else WaitingForLibrary;
          emptyState := !cached;
      }
    }

    /** Opens the saved library if its folder still exists, otherwise shows the empty state. */
    method Start(libraryExists: bool, library: Node)
      modifies this
      ensures libraryPath == old(libraryPath) && settings == old(settings)
      ensures savedSettings == old(savedSettings) && savedLibraryPath == old(savedLibraryPath)
      ensures libraryPath.Some? && libraryPath.value != "" && libraryExists ==>
        Loaded(libraryPath.value, library, settings.recursiveScan, old(cache))
      ensures !(libraryPath.Some? && libraryPath.value != "" && libraryExists) ==>
        emptyState && status == WaitingForLibrary && cache == old(cache) && grid == old(grid)
      ensures old(CacheSorted()) ==> CacheSorted()
    {
      if libraryPath.Some? && libraryPath.value != "" && libraryExists {
        LoadLibrary(libraryPath.value, library);
      } else {
        emptyState := true;
        status := WaitingForLibrary;
      }
    }

    /** Chooses a new library folder, remembers it and loads it; an empty path is ignored. */
    method SetLibraryPath(path: string, library: Node)
      modifies this
      ensures path == "" ==> unchanged(this)
      ensures path != "" ==>
        libraryPath == Some(path) && savedLibraryPath == Some(path)
        && settings == old(settings) && savedSettings == old(savedSettings) && Loaded(path, library, settings.recursiveScan, old(cache))
      ensures old(CacheSorted()) ==> CacheSorted()
    {
      if path == "" {
        return;
      }
      libraryPath := Some(path);
      savedLibraryPath := Some(path);
      LoadLibrary(path, library);
    }

    /**
     * Stores the dialog's values: each size is read as an integer and falls
     * back to its default when it is not a number or is zero. The library,
     * when one is chosen, is then loaded again with the new settings.
     */
    method SaveSettings(widthText: string, heightText: string, fullscreen: bool, recursive: bool, library: Node)
      modifies this
      ensures settings == AppSettings(NumberOr(ParseInt(widthText), DefaultWidth),
                                      NumberOr(ParseInt(heightText), DefaultHeight), fullscreen, recursive)
      ensures settings.webWidth != 0 && settings.webHeight != 0
      ensures savedSettings == Some(settings) && libraryPath == old(libraryPath)
      ensures savedLibraryPath == old(savedLibraryPath)
      ensures libraryPath.Some? && libraryPath.value != "" ==> Loaded(libraryPath.value, library, settings.recursiveScan, old(cache))
      ensures !(libraryPath.Some? && libraryPath.value != "") ==>
        cache == old(cache) && grid == old(grid) && status == old(status) && emptyState == old(emptyState)
      ensures old(CacheSorted()) ==> CacheSorted()
    {
      StoreSettings(widthText, heightText, fullscreen, recursive);
      Reload(library);
    }

    /** Loads the chosen library again, if there is one, with the current settings. */
    method Reload(library: Node)
      modifies this
      ensures settings == old(settings) && savedSettings == old(savedSettings) && libraryPath == old(libraryPath)
      ensures savedLibraryPath == old(savedLibraryPath)
      ensures libraryPath.Some? && libraryPath.value != "" ==>
        Loaded(libraryPath.value, library, settings.recursiveScan, old(cache))
      ensures !(libraryPath.Some? && libraryPath.value != "") ==>
        cache == old(cache) && grid == old(grid) && status == old(status) && emptyState == old(emptyState)
      ensures old(CacheSorted()) ==> CacheSorted()
    {
      if libraryPath.Some? && libraryPath.value != "" {
        LoadLibrary(libraryPath.value, library);
      }
    }

    /** Reads the dialog's values into the settings and saves them. */
    method StoreSettings(widthText: string, heightText: string, fullscreen: bool, recursive: bool)
      modifies this`settings, this`savedSettings
      ensures settings == AppSettings(NumberOr(ParseInt(widthText), DefaultWidth),
                                      NumberOr(ParseInt(heightText), DefaultHeight), fullscreen, recursive)
      ensures settings.webWidth != 0 && settings.webHeight != 0
      ensures savedSettings == Some(settings)
    {
      var width := NumberOr(ParseInt(widthText), DefaultWidth);
      var height := NumberOr(ParseInt(heightText), DefaultHeight);
      settings := AppSettings(width, height, fullscreen, recursive);
      savedSettings := Some(settings);
    }
  }

  /** Once a scan has succeeded, loading the same folder shows the same cards before rescanning. */
  lemma CachedViewMatchesLastScan(games: seq<GameRecord>)
    ensures SortByTitle(SortByTitle(games)) == SortByTitle(games)
  {
    SortKeepsSorted(SortByTitle(games));
  }
}

=== FILE: metadata.dfy ===
/**
 * `getGameMetadata` (main.js): decides whether one folder is a game, of which engine,
 * and derives its title, product code, icon and slim status.
 * The functions state the rules; `GetGameMetadata` does the same work step by step,
 * as the source does, and is proved to agree with them.
 */
module Metadata {
  import opened Common
  import opened Text
  import opened Snapshot
  import TyranoConfig
  import ProductCode

  datatype EngineType = Web | Tyrano | Exe | Unknown

  /** What a scan reports for one game folder. */
  datatype GameRecord = GameRecord(
    title: string,
    folderPath: string,
    entryPoint: string,
    iconPath: Option<string>,
    windowConfig: Option<WindowConfig>,
    engine: EngineType,
    isSlim: bool,
    rjCode: Option<string>)

  /** Folder names that are an engine's own sub-folders or documentation, never a game. */
  const IgnoreList: seq<string> := ["manual", "help", "readme", "documentation", "css", "js", "fonts",
    "images", "img", "audio", "locales", "app", "resources", "www", "icon"]

  predicate IsIgnored(folderName: string)
  {
    Lower(folderName) in IgnoreList
  }

  /** The core script of RPG Maker MV or MZ next to the root `index.html`. */
  predicate HasRootCore(f: Folder)
  {
    Has(f, "js/rpg_core.js") || Has(f, "js/rmmz_core.js")
  }

  /** The core script of RPG Maker MV or MZ under `www/`. */
  predicate HasWwwCore(f: Folder)
  {
    Has(f, "www/js/rpg_core.js") || Has(f, "www/js/rmmz_core.js")
  }

  datatype Classification = Classification(engine: EngineType, entryPoint: string)

  /** The engine and the HTML file to open, by the fixed order of marker checks; None when the folder is no game. */
  function Classify(f: Folder): (r: Option<Classification>)
    ensures r.Some? ==> Has(f, r.value.entryPoint)
    ensures r.Some? ==> r.value.engine == Web || r.value.engine == Tyrano
  {
    var fromRoot :=
      if !Has(f, "index.html") then None
      else if HasRootCore(f) then Some(Classification(Web, "index.html"))
      else if Has(f, "tyrano") then Some(Classification(Tyrano, "index.html"))
      else if HasWwwCore(f) then Some(Classification(Web, "index.html"))
      else None;
    if fromRoot.Some? then fromRoot
    else if !Has(f, "www/index.html") then None
    else if HasWwwCore(f) then Some(Classification(Web, "www/index.html"))
    else if Has(f, "www/tyrano") then Some(Classification(Tyrano, "www/index.html"))
    else None
  }

  const SystemJsonPaths: seq<string> := ["www/data/System.json", "data/System.json"]
  const ConfigPaths: seq<string> := ["data/system/Config.tjs", "www/data/system/Config.tjs"]
  const IconPaths: seq<string> := ["icon.png", "www/icon.png", "icon/icon.png"]

  /** The project name RPG Maker MZ writes into every new `package.json`. */
  const PlaceholderPackageName: string := "rmmz-game"

  /** A `System.json` whose `gameTitle` is a string that is not blank. */
  predicate UsableSystem(sys: SystemJson)
  {
    sys.SystemData? && sys.gameTitle.Some? && Trim(sys.gameTitle.value) != ""
  }

  /** The `gameTitle` of the first `System.json` among `paths` that exists and is usable, kept untrimmed. */
  function SystemTitle(f: Folder, paths: seq<string>): (r: Option<string>)
    ensures r.Some? ==> Trim(r.value) != ""
    ensures r.Some? <==> exists k :: 0 <= k < |paths| && Has(f, paths[k]) && UsableSystem(SystemAt(f, paths[k]))
    ensures r.Some? ==> exists k :: 0 <= k < |paths| && Has(f, paths[k]) && SystemAt(f, paths[k]) == SystemData(r)
  {
    if paths == [] then None
    else if Has(f, paths[0]) && UsableSystem(SystemAt(f, paths[0])) then SystemAt(f, paths[0]).gameTitle
    else
      var r := SystemTitle(f, paths[1..]);
      assert forall k :: 1 <= k < |paths| ==> paths[k] == paths[1..][k - 1];
      r
  }

  /** `match && match[1]`: the pattern matched and its capture is not empty. */
  predicate UsableCapture(m: Option<string>)
  {
    m.Some? && m.value != []
  }

  /** The `Config.tjs` at `p` exists, was read, and names the game. */
  predicate ConfigNamed(f: Folder, p: string)
  {
    Has(f, p) && p in f.configText && UsableCapture(TyranoConfig.MatchTitle(f.configText[p]))
  }

  /** The search goes on past `p`: the file is absent, or it was read and gave no usable title. */
  predicate ConfigPasses(f: Folder, p: string)
  {
    !Has(f, p) || (p in f.configText && !UsableCapture(TyranoConfig.MatchTitle(f.configText[p])))
  }

  /** The search ends at `p` without a title: the file exists but reading it throws. */
  predicate ConfigStops(f: Folder, p: string)
  {
    Has(f, p) && p !in f.configText
  }

  /** The search goes on past each of `paths[i..k]`. */
  predicate ConfigPassesBetween(f: Folder, paths: seq<string>, i: nat, k: nat)
    requires k <= |paths|
  {
    forall j :: i <= j < k ==> ConfigPasses(f, paths[j])
  }

  /**
   * The title found in the first `Config.tjs` among `paths` whose first match has a non-empty capture.
   * A file that exists but cannot be read ends the search: the read throws out of the whole loop.
   */
  function ConfigTitle(f: Folder, paths: seq<string>): (r: Option<string>)
    ensures r.Some? ==> r.value != []
    ensures r.Some? ==> exists k :: 0 <= k < |paths| && ConfigNamed(f, paths[k]) && ConfigPassesBetween(f, paths, 0, k)
                                    && TyranoConfig.MatchTitle(f.configText[paths[k]]) == r
    ensures r.None? <==> ConfigPassesBetween(f, paths, 0, |paths|)
                         || exists k :: 0 <= k < |paths| && ConfigStops(f, paths[k]) && ConfigPassesBetween(f, paths, 0, k)
  {
    ConfigSearchDecides(f, paths);
    ConfigTitleFrom(f, paths, 0)
  }

  /** The search over `paths[i..]`. */
  function ConfigTitleFrom(f: Folder, paths: seq<string>, i: nat): Option<string>
    requires i <= |paths|
    decreases |paths| - i
  {
    if i == |paths| then None
    else if ConfigStops(f, paths[i]) then None
    else if ConfigNamed(f, paths[i]) then TyranoConfig.MatchTitle(f.configText[paths[i]])
    else ConfigTitleFrom(f, paths, i + 1)
  }

  /**
   * The search from `i` decides at the first path `k` that does not let it go on:
   * a title there, or nothing when that file cannot be read or no such path is left.
   */
  lemma {:induction false} ConfigSearch(f: Folder, paths: seq<string>, i: nat) returns (k: nat)
    requires i <= |paths|
    ensures i <= k <= |paths| && ConfigPassesBetween(f, paths, i, k)
    ensures k < |paths| ==> ConfigNamed(f, paths[k]) || ConfigStops(f, paths[k])
    ensures k < |paths| && ConfigNamed(f, paths[k]) ==>
              ConfigTitleFrom(f, paths, i) == TyranoConfig.MatchTitle(f.configText[paths[k]])
    ensures k < |paths| && ConfigStops(f, paths[k]) ==> ConfigTitleFrom(f, paths, i).None?
    ensures k == |paths| ==> ConfigTitleFrom(f, paths, i).None?
    decreases |paths| - i
  {
    if i == |paths| || ConfigStops(f, paths[i]) || ConfigNamed(f, paths[i]) {
      k := i;
    } else {
      k := ConfigSearch(f, paths, i + 1);
    }
  }

  lemma ConfigSearchDecides(f: Folder, paths: seq<string>)
    ensures var r := ConfigTitleFrom(f, paths, 0);
      && (r.Some? ==> r.value != [])
      && (r.Some? ==> exists k :: 0 <= k < |paths| && ConfigNamed(f, paths[k]) && ConfigPassesBetween(f, paths, 0, k)
                                  && TyranoConfig.MatchTitle(f.configText[paths[k]]) == r)
      && (r.None? <==> ConfigPassesBetween(f, paths, 0, |paths|)
                       || exists k :: 0 <= k < |paths| && ConfigStops(f, paths[k]) && ConfigPassesBetween(f, paths, 0, k))
  {
    var k := ConfigSearch(f, paths, 0);
    assert k < |paths| ==> !ConfigPasses(f, paths[k]);
  }

  /** The title the engine's own configuration gives. */
  function EngineTitle(f: Folder, engine: EngineType): Option<string>
  {
    match engine
    case Web => SystemTitle(f, SystemJsonPaths)
    case Tyrano => ConfigTitle(f, ConfigPaths)
    case _ => None
  }

  /** The `package.json` name when it is a non-empty string other than the MZ placeholder. */
  function PackageTitle(f: Folder): (r: Option<string>)
    ensures r.Some? ==> r.value != [] && r.value != PlaceholderPackageName
    ensures r.Some? ==> Has(f, "package.json") && f.packageJson.PackageData? && f.packageJson.name == r
    ensures r.None? <==> !Has(f, "package.json") || f.packageJson.PackageUnparsable? || f.packageJson.name.None?
                         || f.packageJson.name.value == [] || f.packageJson.name.value == PlaceholderPackageName
  {
    if Has(f, "package.json") && f.packageJson.PackageData? && f.packageJson.name.Some?
       && f.packageJson.name.value != [] && f.packageJson.name.value != PlaceholderPackageName
    then f.packageJson.name
    else None
  }

  /** The `window` object of a readable `package.json`, whatever its name says. */
  function PackageWindow(f: Folder): Option<WindowConfig>
  {
    if Has(f, "package.json") && f.packageJson.PackageData? then f.packageJson.window else None
  }

  /** The folder name with every `[RJ<digits>]` tag removed, then trimmed. */
  function FallbackTitle(folderName: string): (r: string)
    ensures |r| <= |folderName|
  {
    Trim(ProductCode.StripRJ(folderName))
  }

  /** Engine configuration first, then `package.json`, then the folder name. */
  function ResolveTitle(f: Folder, folderName: string, engine: EngineType): (r: string)
    ensures EngineTitle(f, engine).Some? ==> r == EngineTitle(f, engine).value && r != []
    ensures EngineTitle(f, engine).None? && PackageTitle(f).Some? ==> r == PackageTitle(f).value && r != PlaceholderPackageName
    ensures EngineTitle(f, engine).None? && PackageTitle(f).None? ==> r == FallbackTitle(folderName)
  {
    match EngineTitle(f, engine)
    case Some(t) => t
    case None =>
      match PackageTitle(f)
      case Some(t) => t
      case None => FallbackTitle(folderName)
  }

  /** The first of `paths` that exists. */
  function FirstPresent(f: Folder, paths: seq<string>): (r: Option<string>)
    ensures r.Some? ==> r.value in paths && Has(f, r.value)
    ensures r.None? <==> forall k :: 0 <= k < |paths| ==> !Has(f, paths[k])
    ensures r.Some? ==> exists k :: 0 <= k < |paths| && paths[k] == r.value && forall j :: 0 <= j < k ==> !Has(f, paths[j])
  {
    if paths == [] then None
    else if Has(f, paths[0]) then Some(paths[0])
    else
      var r := FirstPresent(f, paths[1..]);
      assert forall k :: 1 <= k < |paths| ==> paths[k] == paths[1..][k - 1];
      r
  }

  /** A web game is slim when none of the bundled NW.js runtime files is left; a Tyrano game never is. */
  predicate IsSlim(f: Folder, engine: EngineType)
  {
    engine == Web && !Has(f, "nw.exe") && !Has(f, "Game.exe") && !Has(f, "nw.dll")
  }

  /** The record `getGameMetadata(folderPath, folderName)` returns, or None for `null`. */
  function GameMetadata(folderPath: string, folderName: string, f: Folder): (r: Option<GameRecord>)
    ensures r.None? <==> IsIgnored(folderName) || Classify(f).None?
    ensures r.Some? ==> r.value.folderPath == folderPath && Has(f, r.value.entryPoint)
    ensures r.Some? ==> Classify(f) == Some(Classification(r.value.engine, r.value.entryPoint))
    ensures r.Some? ==> r.value.engine != Exe && r.value.engine != Unknown
    ensures r.Some? ==> r.value.rjCode == ProductCode.RJCode(folderName)
    ensures r.Some? ==> (r.value.isSlim <==> r.value.engine == Web && !Has(f, "nw.exe") && !Has(f, "Game.exe") && !Has(f, "nw.dll"))
    ensures r.Some? && r.value.engine == Web && SystemTitle(f, SystemJsonPaths).Some? ==>
              r.value.title == SystemTitle(f, SystemJsonPaths).value
    ensures r.Some? && r.value.engine == Tyrano && ConfigTitle(f, ConfigPaths).Some? ==>
              r.value.title == ConfigTitle(f, ConfigPaths).value
    ensures r.Some? && EngineTitle(f, r.value.engine).None? && PackageTitle(f).Some? ==>
              r.value.title == PackageTitle(f).value
    ensures r.Some? && EngineTitle(f, r.value.engine).None? && PackageTitle(f).None? ==>
              r.value.title == FallbackTitle(folderName)
    ensures r.Some? ==> r.value.windowConfig == PackageWindow(f)
    ensures r.Some? ==> (r.value.iconPath.None? <==> forall k :: 0 <= k < |IconPaths| ==> !Has(f, IconPaths[k]))
    ensures r.Some? && r.value.iconPath.Some? ==>
              exists k :: 0 <= k < |IconPaths| && Has(f, IconPaths[k]) && (forall j :: 0 <= j < k ==> !Has(f, IconPaths[j]))
                          && r.value.iconPath == Some(PathJoin(folderPath, IconPaths[k]))
  {
    if IsIgnored(folderName) then None
    else match Classify(f)
      case None => None
      case Some(c) =>
        Some(RecordFor(folderPath, folderName, f, c))
  }

  /** The record of a folder that classified as `c`. */
  function RecordFor(folderPath: string, folderName: string, f: Folder, c: Classification): GameRecord
  {
    GameRecord(
      ResolveTitle(f, folderName, c.engine),
      folderPath,
      c.entryPoint,
      IconPathFor(folderPath, f),
      PackageWindow(f),
      c.engine,
      IsSlim(f, c.engine),
      ProductCode.RJCode(folderName))
  }

  /** The full path of the first icon candidate that exists. */
  function IconPathFor(folderPath: string, f: Folder): (r: Option<string>)
    ensures r.None? <==> forall k :: 0 <= k < |IconPaths| ==> !Has(f, IconPaths[k])
    ensures r.Some? ==> exists k :: 0 <= k < |IconPaths| && Has(f, IconPaths[k]) && (forall j :: 0 <= j < k ==> !Has(f, IconPaths[j]))
                                    && r == Some(PathJoin(folderPath, IconPaths[k]))
  {
    match FirstPresent(f, IconPaths)
    case None => None
    case Some(p) => Some(PathJoin(folderPath, p))
  }

  /** Step 1 of `getGameMetadata`: the marker checks that set `entryPoint` and `type`. */
  method DetectEntryPoint(f: Folder) returns (r: Option<Classification>)
    ensures r == Classify(f)
  {
    var entryPoint: Option<string> := None;
    var engine := Unknown;
    var hasIndex := Has(f, "index.html");
    var hasWwwIndex := Has(f, "www/index.html");

    if hasIndex {
      if Has(f, "js/rpg_core.js") || Has(f, "js/rmmz_core.js") {
        entryPoint, engine := Some("index.html"), Web;
      } else if Has(f, "tyrano") {
        entryPoint, engine := Some("index.html"), Tyrano;
      } else if Has(f, "www/js/rpg_core.js") || Has(f, "www/js/rmmz_core.js") {
        entryPoint, engine := Some("index.html"), Web;
      }
    }
    if entryPoint.None? && hasWwwIndex {
      if Has(f, "www/js/rpg_core.js") || Has(f, "www/js/rmmz_core.js") {
        entryPoint, engine := Some("www/index.html"), Web;
      } else if Has(f, "www/tyrano") {
        entryPoint, engine := Some("www/index.html"), Tyrano;
      }
    }
    r := if entryPoint.None? then None else Some(Classification(engine, entryPoint.value));
  }

  /** The loop over the two `System.json` paths, leaving at the first usable `gameTitle`. */
  method FindSystemTitle(f: Folder) returns (title: Option<string>)
    ensures title == SystemTitle(f, SystemJsonPaths)
  {
    title := None;
    var k := 0;
    while k < |SystemJsonPaths|
      invariant 0 <= k <= |SystemJsonPaths|
      invariant title == None
      invariant SystemTitle(f, SystemJsonPaths) == SystemTitle(f, SystemJsonPaths[k..])
    {
      var sysPath := SystemJsonPaths[k];
      if Has(f, sysPath) {
        var sys := SystemAt(f, sysPath);
        if sys.SystemData? && sys.gameTitle.Some? && Trim(sys.gameTitle.value) != "" {
          title := sys.gameTitle;
          break;
        }
      }
      k := k + 1;
    }
  }

  /** The loop over the two `Config.tjs` paths, leaving at the first non-empty capture or at a failed read. */
  method FindConfigTitle(f: Folder) returns (title: Option<string>)
    ensures title == ConfigTitle(f, ConfigPaths)
  {
    title := None;
    var k := 0;
    while k < |ConfigPaths|
      invariant 0 <= k <= |ConfigPaths|
      invariant title == None
      invariant ConfigTitle(f, ConfigPaths) == ConfigTitleFrom(f, ConfigPaths, k)
    {
      var cfgPath := ConfigPaths[k];
      if Has(f, cfgPath) {
        if cfgPath !in f.configText {
          // the read throws, and the try around the loop ends the search
          assert ConfigStops(f, cfgPath);
          break;
        }
        var m := TyranoConfig.MatchTitle(f.configText[cfgPath]);
        if m.Some? && m.value != [] {
          assert ConfigNamed(f, cfgPath);
          title := m;
          break;
        }
      }
      assert !ConfigStops(f, cfgPath) && !ConfigNamed(f, cfgPath);
      k := k + 1;
    }
  }

  /** The loop over the icon candidates, leaving at the first that exists. */
  method FindIcon(folderPath: string, f: Folder) returns (iconPath: Option<string>)
    ensures iconPath == IconPathFor(folderPath, f)
  {
    iconPath := None;
    var k := 0;
    while k < |IconPaths|
      invariant 0 <= k <= |IconPaths|
      invariant iconPath == None
      invariant FirstPresent(f, IconPaths) == FirstPresent(f, IconPaths[k..])
    {
      if Has(f, IconPaths[k]) {
        iconPath := Some(PathJoin(folderPath, IconPaths[k]));
        break;
      }
      k := k + 1;
    }
  }

  /** `getGameMetadata`, statement by statement. */
  method GetGameMetadata(folderPath: string, folderName: string, f: Folder) returns (r: Option<GameRecord>)
    ensures r == GameMetadata(folderPath, folderName, f)
  {
    if Lower(folderName) in IgnoreList {
      return None;
    }
    var detected := DetectEntryPoint(f);
    if detected.None? {
      return None;
    }
    var engine, entryPoint := detected.value.engine, detected.value.entryPoint;

    // 1. the engine's own configuration
    var title: Option<string> := None;
    if engine == Web {
      title := FindSystemTitle(f);
    } else if engine == Tyrano {
      title := FindConfigTitle(f);
    }

    // 2. package.json
    var windowConfig: Option<WindowConfig> := None;
    if Has(f, "package.json") && f.packageJson.PackageData? {
      var pkg := f.packageJson;
      if title.None? && pkg.name.Some? && pkg.name.value != [] && pkg.name.value != PlaceholderPackageName {
        title := pkg.name;
      }
      if pkg.window.Some? {
        windowConfig := pkg.window;
      }
    }

    // 3. the folder name
    if title.None? {
      title := Some(Trim(ProductCode.StripRJ(folderName)));
    }
    assert title.value == ResolveTitle(f, folderName, engine);

    var rjCode := ProductCode.RJCode(folderName);
    var iconPath := FindIcon(folderPath, f);

    var isSlim := false;
    if engine == Web {
      var hasNwExe := Has(f, "nw.exe");
      var hasGameExe := Has(f, "Game.exe");
      var hasNwDll := Has(f, "nw.dll");
      if !hasNwExe && !hasGameExe && !hasNwDll {
        isSlim := true;
      }
    }

    var record := GameRecord(title.value, folderPath, entryPoint, iconPath, windowConfig, engine, isSlim, rjCode);
    assert record == RecordFor(folderPath, folderName, f, detected.value);
    r := Some(record);
  }
}

=== FILE: metadata_facts.dfy ===
/** What the rules of `getGameMetadata` guarantee, beyond each function's own contract. */
module MetadataFacts {
  import opened Common
  import opened Text
  import opened Snapshot
  import opened Metadata
  import ProductCode
  import TyranoConfig

  /** A folder is a game exactly when one of the marker combinations is present. */
  lemma ClassifyNoneIff(f: Folder)
    ensures Classify(f).None? <==>
      !(Has(f, "index.html") && (HasRootCore(f) || Has(f, "tyrano") || HasWwwCore(f)))
      && !(Has(f, "www/index.html") && (HasWwwCore(f) || Has(f, "www/tyrano")))
  {
  }

  /** The marker checks, in the order they are tried; the first that holds decides. */
  lemma ClassificationPrecedence(f: Folder)
    ensures Has(f, "index.html") && HasRootCore(f) ==>
              Classify(f) == Some(Classification(Web, "index.html"))
    ensures Has(f, "index.html") && !HasRootCore(f) && Has(f, "tyrano") ==>
              Classify(f) == Some(Classification(Tyrano, "index.html"))
    ensures Has(f, "index.html") && !HasRootCore(f) && !Has(f, "tyrano") && HasWwwCore(f) ==>
              Classify(f) == Some(Classification(Web, "index.html"))
    ensures !Has(f, "index.html") && Has(f, "www/index.html") && HasWwwCore(f) ==>
              Classify(f) == Some(Classification(Web, "www/index.html"))
    ensures !(Has(f, "index.html") && (HasRootCore(f) || Has(f, "tyrano")))
              && Has(f, "www/index.html") && !HasWwwCore(f) && Has(f, "www/tyrano") ==>
              Classify(f) == Some(Classification(Tyrano, "www/index.html"))
  {
  }

  /** The ignore list is matched without regard to letter case. */
  lemma IgnoreListAnyCase()
    ensures forall n :: IsIgnored(Upper(n)) == IsIgnored(n)
    ensures IsIgnored("WWW") && IsIgnored("Www") && IsIgnored("Locales") && IsIgnored("ICON")
    ensures !IsIgnored("MyGame")
  {
    forall n
      ensures IsIgnored(Upper(n)) == IsIgnored(n)
    {
      LowerUpper(n);
    }
    assert Lower("WWW") == "www";
    assert Lower("Www") == "www";
    assert Lower("Locales") == "locales";
    assert Lower("ICON") == "icon";
    assert Lower("MyGame") == "mygame";
  }

  /** With both `System.json` files usable, the one under `www/` gives the title. */
  lemma WwwSystemJsonFirst(f: Folder)
    requires Has(f, "www/data/System.json") && UsableSystem(SystemAt(f, "www/data/System.json"))
    ensures EngineTitle(f, Web) == SystemAt(f, "www/data/System.json").gameTitle
  {
  }

  /** A Tyrano game whose `data/system/Config.tjs` holds the editor's title line is named by it. */
  lemma TyranoTitleFromConfig(f: Folder, before: string, title: string, after: string)
    requires Has(f, "data/system/Config.tjs")
    requires "data/system/Config.tjs" in f.configText
    requires f.configText["data/system/Config.tjs"] == before + TyranoConfig.TitleLine(title) + after
    requires !Contains(before, TyranoConfig.Key)
    requires title != [] && TyranoConfig.Capturable(title)
    ensures EngineTitle(f, Tyrano) == Some(title)
  {
    var p := ConfigPaths[0];
    TyranoConfig.FirstTitleLineWins(before, title, after);
    assert TyranoConfig.MatchTitle(f.configText[p]) == Some(title);
    assert !ConfigStops(f, p) && ConfigNamed(f, p);
    assert ConfigTitleFrom(f, ConfigPaths, 0) == Some(title);
  }

  /**
   * A `Config.tjs` that exists but cannot be read ends the search, even when the
   * second candidate would have named the game.
   */
  lemma UnreadableConfigEndsSearch(f: Folder)
    requires Has(f, "data/system/Config.tjs") && "data/system/Config.tjs" !in f.configText
    ensures EngineTitle(f, Tyrano).None?
  {
    assert ConfigStops(f, ConfigPaths[0]);
  }

  /** Without an engine title, a usable `package.json` name is the title. */
  lemma PackageNameUsed(f: Folder, folderName: string, engine: EngineType, name: string)
    requires EngineTitle(f, engine).None?
    requires Has(f, "package.json") && f.packageJson.PackageData? && f.packageJson.name == Some(name)
    requires name != [] && name != "rmmz-game"
    ensures ResolveTitle(f, folderName, engine) == name
  {
  }

  /** The MZ placeholder name `rmmz-game` is passed over in favour of the folder name. */
  lemma PlaceholderFallsBack(f: Folder, folderName: string, engine: EngineType)
    requires EngineTitle(f, engine).None?
    requires Has(f, "package.json") && f.packageJson.PackageData? && f.packageJson.name == Some("rmmz-game")
    ensures ResolveTitle(f, folderName, engine) == FallbackTitle(folderName)
  {
  }

  /** Without any title source, the folder name is used with its product tags removed. */
  lemma FallbackWhenNoSource(f: Folder, folderName: string, engine: EngineType)
    requires EngineTitle(f, engine).None? && !Has(f, "package.json")
    ensures ResolveTitle(f, folderName, engine) == FallbackTitle(folderName)
  {
  }

  lemma {:induction false} TrimEndUnspaced(s: string)
    requires s != [] && !IsSpace(s[|s| - 1])
    ensures TrimEnd(s) == s
  {
  }

  lemma {:induction false} TrimOneTrailingSpace(name: string)
    requires name != [] && !IsSpace(name[0]) && !IsSpace(name[|name| - 1])
    ensures Trim(name + " ") == name
  {
    var s := name + " ";
    assert TrimStart(s) == s;
    assert s[..|s| - 1] == name;
    assert TrimEnd(s) == TrimEnd(name);
    TrimEndUnspaced(name);
  }

  /** A folder named `<name> [RJ<digits>]` falls back to `<name>`. */
  lemma FallbackDropsTrailingCode(name: string, digits: string)
    requires '[' !in name && name != [] && !IsSpace(name[0]) && !IsSpace(name[|name| - 1])
    requires digits != [] && AllDigits(digits)
    ensures FallbackTitle(name + " [RJ" + digits + "]") == name
  {
    var a := name + " ";
    var tag := ['[', 'R', 'J'] + digits + [']'];
    assert name + " [RJ" + digits + "]" == a + tag + [];
    assert ProductCode.IsR('R') && ProductCode.IsJ('J');
    ProductCode.StripRJAroundTag(a, 'R', 'J', digits, []);
    assert ProductCode.StripRJ([]) == [];
    ProductCode.NoBracketUntagged(a);
    ProductCode.StripRJUntagged(a);
    assert ProductCode.StripRJ(name + " [RJ" + digits + "]") == a;
    TrimOneTrailingSpace(name);
  }

  lemma FallbackExample()
    ensures FallbackTitle("MyGame [RJ123456]") == "MyGame"
  {
    var name, digits := "MyGame", "123456";
    assert '[' !in name;
    assert !IsSpace(name[0]) && !IsSpace(name[|name| - 1]);
    assert AllDigits(digits);
    assert name + " [RJ" + digits + "]" == "MyGame [RJ123456]";
    FallbackDropsTrailingCode(name, digits);
  }
}

=== FILE: product_code.dfy ===
/**
 * Product codes in folder names: the `[RJ<digits>]` tags the title fallback removes
 * (`replace(/\[RJ\d+\]/gi, '')`) and the code the context menu links to (`match(/(RJ\d+)/i)`).
 */
module ProductCode {
  import opened Common
  import opened Text

  /** How many decimal digits `s` starts with. */
  function DigitRun(s: string): (n: nat)
    ensures n <= |s|
    ensures AllDigits(s[..n])
    ensures n < |s| ==> !IsDigit(s[n])
  {
    if s != [] && IsDigit(s[0]) then
      var m := DigitRun(s[1..]);
      assert s[..m + 1] == [s[0]] + s[1..][..m];
      m + 1
    else 0
  }

  predicate IsR(c: char) { c == 'R' || c == 'r' }
  predicate IsJ(c: char) { c == 'J' || c == 'j' }

  /** A `[RJ<digits>]` tag of `d` digits stands at the start of `s`. */
  predicate TagOf(s: string, d: nat)
  {
    d > 0 && d + 4 <= |s| && s[0] == '[' && IsR(s[1]) && IsJ(s[2])
    && AllDigits(s[3..3 + d]) && s[3 + d] == ']'
  }

  /** Length of the tag at the start of `s`, or 0 when there is none. */
  function TagLen(s: string): (n: nat)
    ensures n == 0 || (n >= 5 && TagOf(s, n - 4))
    ensures n == 0 <==> forall d: nat :: !TagOf(s, d)
  {
    if |s| >= 3 && s[0] == '[' && IsR(s[1]) && IsJ(s[2]) then
      var d := DigitRun(s[3..]);
      assert s[3..][..d] == s[3..3 + d];
      TagDigitsExact(s);
      if d > 0 && d + 4 <= |s| && s[3 + d] == ']' then
        d + 4
      else
        0
    else 0
  }

  /** A tag's digits are exactly the digit run after `[RJ`. */
  lemma TagDigitsExact(s: string)
    requires |s| >= 3
    ensures forall d: nat :: TagOf(s, d) ==> DigitRun(s[3..]) == d
  {
    forall d: nat | TagOf(s, d) ensures DigitRun(s[3..]) == d {
      assert s[3..][..d] == s[3..3 + d];
      DigitRunIs(s[3..], d);
    }
  }

  /** The digit run ends at the first non-digit. */
  lemma {:induction false} DigitRunIs(x: string, d: nat)
    requires d < |x| && AllDigits(x[..d]) && !IsDigit(x[d])
    ensures DigitRun(x) == d
  {
    if d > 0 {
      assert x[..d][0] == x[0];
      assert x[1..][..d - 1] == x[..d][1..];
      DigitRunIs(x[1..], d - 1);
    }
  }

  /** `s.replace(/\[RJ\d+\]/gi, '')`: every tag removed, scanning left to right. */
  function StripRJ(s: string): (r: string)
    ensures |r| <= |s|
  {
    if s == [] then []
    else
      var n := TagLen(s);
      if n > 0 then StripRJ(s[n..]) else [s[0]] + StripRJ(s[1..])
  }

  /**
   * The replace makes one pass and does not look again at what removing a tag
   * brings together: `[RJ[RJ1]1]` becomes `[RJ1]`, itself a tag.
   */
  lemma StripRJSinglePass(digits: string)
    requires digits != [] && AllDigits(digits)
    ensures StripRJ("[RJ" + ("[RJ" + digits + "]") + digits + "]") == "[RJ" + digits + "]"
    ensures TagLen("[RJ" + digits + "]") == |digits| + 4
  {
    var tag := "[RJ" + digits + "]";
    var tail := digits + "]";
    StripOpener(tag + tail);
    TagThenDigits(digits);
    ConcatAssoc("[RJ" + tag, digits, "]");
    ConcatAssoc("[RJ", tag, tail);
    ConcatAssoc("[RJ", digits, "]");
    WholeTag(digits);
  }

  /** An opening `[RJ` followed by `[` is kept as it is. */
  lemma StripOpener(u: string)
    requires u != [] && u[0] == '['
    ensures StripRJ("[RJ" + u) == "[RJ" + StripRJ(u)
  {
    var ju := ['J'] + u;
    var rju := ['R'] + ju;
    NoTagInOpener(u);
    StripKeepsChar('J', u);
    StripKeepsChar('R', ju);
    StripKeepsChar('[', rju);
    OpenerSplit(u);
    OpenerSplit(StripRJ(u));
  }

  lemma OpenerSplit(x: string)
    ensures "[RJ" + x == ['['] + (['R'] + (['J'] + x))
  {
  }

  /** A tag followed by digits and `]` leaves the digits and `]`. */
  lemma TagThenDigits(digits: string)
    requires digits != [] && AllDigits(digits)
    ensures StripRJ(("[RJ" + digits + "]") + (digits + "]")) == digits + "]"
  {
    assert IsR('R') && IsJ('J');
    StripLeadingTag('R', 'J', digits, digits + "]");
    assert ['[', 'R', 'J'] + digits + [']'] == "[RJ" + digits + "]";
    DigitsCloseUntagged(digits);
  }

  /** Digits and a closing `]` hold no tag. */
  lemma DigitsCloseUntagged(digits: string)
    requires AllDigits(digits)
    ensures StripRJ(digits + "]") == digits + "]"
  {
    var tail := digits + "]";
    assert '[' !in tail by {
      assert forall k :: 0 <= k < |tail| ==> tail[k] == ']' || IsDigit(tail[k]);
    }
    NoBracketUntagged(tail);
    StripRJUntagged(tail);
  }

  /** `[RJ<digits>]` is one whole tag. */
  lemma WholeTag(digits: string)
    requires digits != [] && AllDigits(digits)
    ensures TagLen("[RJ" + digits + "]") == |digits| + 4
  {
    var tag := "[RJ" + digits + "]";
    assert tag[3..3 + |digits|] == digits;
    assert TagOf(tag, |digits|);
    TagDigitsExact(tag);
  }

  /** An opening `[RJ` followed by `[` starts no tag at any of its three characters. */
  lemma NoTagInOpener(u: string)
    requires u != [] && u[0] == '['
    ensures TagLen(['['] + (['R'] + (['J'] + u))) == 0
    ensures TagLen(['R'] + (['J'] + u)) == 0 && TagLen(['J'] + u) == 0
  {
    var s := ['['] + (['R'] + (['J'] + u));
    assert s[3..] == u;
    assert DigitRun(u) == 0;
  }

  /** A character that starts no tag is kept. */
  lemma StripKeepsChar(c: char, t: string)
    requires TagLen([c] + t) == 0
    ensures StripRJ([c] + t) == [c] + StripRJ(t)
  {
    assert ([c] + t)[1..] == t;
  }

  /** A string in which no tag starts anywhere is left as it is. */
  lemma {:induction false} StripRJUntagged(s: string)
    requires forall i :: 0 <= i < |s| ==> TagLen(s[i..]) == 0
    ensures StripRJ(s) == s
  {
    if s != [] {
      assert s[0..] == s;
      forall i | 0 <= i < |s| - 1 ensures TagLen(s[1..][i..]) == 0 {
        assert s[1..][i..] == s[i + 1..];
      }
      StripRJUntagged(s[1..]);
    }
  }

  /** A string without `[` holds no tag. */
  lemma NoBracketUntagged(s: string)
    requires '[' !in s
    ensures forall i :: 0 <= i < |s| ==> TagLen(s[i..]) == 0
  {
    forall i | 0 <= i < |s| ensures TagLen(s[i..]) == 0 {
      assert s[i..][0] == s[i];
    }
  }

  /** A digit run ends where a non-digit follows. */
  lemma {:induction false} DigitRunStops(x: string, rest: string)
    requires rest != [] && !IsDigit(rest[0])
    ensures DigitRun(x + rest) == DigitRun(x)
    decreases |x|
  {
    if x == [] {
      assert x + rest == rest;
    } else {
      assert (x + rest)[1..] == x[1..] + rest;
      DigitRunStops(x[1..], rest);
    }
  }

  /** A tag that starts at the front of `a + rest`, where `rest` begins with `[`, ends inside `a`. */
  lemma {:induction false} TagStaysLeft(a: string, rest: string)
    requires a != [] && rest != [] && rest[0] == '['
    ensures TagLen(a + rest) == TagLen(a)
  {
    var s := a + rest;
    if |a| >= 3 {
      assert s[0] == a[0] && s[1] == a[1] && s[2] == a[2];
      assert s[3..] == a[3..] + rest;
      DigitRunStops(a[3..], rest);
      var d := DigitRun(a[3..]);
      if 3 + d < |a| {
        assert s[3 + d] == a[3 + d];
      } else {
        assert s[3 + d] == '[';
      }
    } else {
      assert s[|a|] == '[';
    }
  }

  lemma StripLeadingTag(r: char, j: char, digits: string, b: string)
    requires IsR(r) && IsJ(j) && digits != [] && AllDigits(digits)
    ensures StripRJ((['[', r, j] + digits + [']']) + b) == StripRJ(b)
  {
    var s := (['[', r, j] + digits + [']']) + b;
    assert s[3..3 + |digits|] == digits;
    assert TagOf(s, |digits|);
    assert TagLen(s) == |digits| + 4;
    assert s[|digits| + 4..] == b;
  }

  /** When `a` starts with a tag, `StripRJ` drops it from `a + rest` as from `a`, if `rest` begins with `[`. */
  lemma StripTagStep(a: string, rest: string)
    requires a != [] && rest != [] && rest[0] == '[' && TagLen(a) > 0
    ensures StripRJ(a + rest) == StripRJ(a[TagLen(a)..] + rest)
    ensures StripRJ(a) == StripRJ(a[TagLen(a)..])
  {
    TagStaysLeft(a, rest);
    var n := TagLen(a);
    assert (a + rest)[n..] == a[n..] + rest;
  }

  /** When `a` does not start with a tag, `StripRJ` keeps its first character in `a + rest` as in `a`. */
  lemma StripCharStep(a: string, rest: string)
    requires a != [] && rest != [] && rest[0] == '[' && TagLen(a) == 0
    ensures StripRJ(a + rest) == [a[0]] + StripRJ(a[1..] + rest)
    ensures StripRJ(a) == [a[0]] + StripRJ(a[1..])
  {
    TagStaysLeft(a, rest);
    assert (a + rest)[1..] == a[1..] + rest;
  }

  /** Removing a tag `[RJ<digits>]` with any case of R and J leaves what surrounds it, each side stripped on its own. */
  lemma {:induction false} StripRJAroundTag(a: string, r: char, j: char, digits: string, b: string)
    requires IsR(r) && IsJ(j) && digits != [] && AllDigits(digits)
    ensures StripRJ(a + (['[', r, j] + digits + [']']) + b) == StripRJ(a) + StripRJ(b)
    decreases |a|, 1
  {
    if a == [] {
      assert a + (['[', r, j] + digits + [']']) + b == (['[', r, j] + digits + [']']) + b;
      StripLeadingTag(r, j, digits, b);
    } else if TagLen(a) > 0 {
      TagBeforeTag(a, r, j, digits, b);
    } else {
      CharBeforeTag(a, r, j, digits, b);
    }
  }

  /** `StripRJAroundTag` when `a` itself starts with a tag. */
  lemma {:induction false} TagBeforeTag(a: string, r: char, j: char, digits: string, b: string)
    requires IsR(r) && IsJ(j) && digits != [] && AllDigits(digits)
    requires a != [] && TagLen(a) > 0
    ensures StripRJ(a + (['[', r, j] + digits + [']']) + b) == StripRJ(a) + StripRJ(b)
    decreases |a|, 0
  {
    var tag := ['[', r, j] + digits + [']'];
    var rest := tag + b;
    ConcatAssoc(a, tag, b);
    var a' := a[TagLen(a)..];
    StripTagStep(a, rest);
    ConcatAssoc(a', tag, b);
    StripRJAroundTag(a', r, j, digits, b);
  }

  /** `StripRJAroundTag` when `a` does not start with a tag. */
  lemma {:induction false} CharBeforeTag(a: string, r: char, j: char, digits: string, b: string)
    requires IsR(r) && IsJ(j) && digits != [] && AllDigits(digits)
    requires a != [] && TagLen(a) == 0
    ensures StripRJ(a + (['[', r, j] + digits + [']']) + b) == StripRJ(a) + StripRJ(b)
    decreases |a|, 0
  {
    var tag := ['[', r, j] + digits + [']'];
    var rest := tag + b;
    ConcatAssoc(a, tag, b);
    var a' := a[1..];
    StripCharStep(a, rest);
    ConcatAssoc(a', tag, b);
    StripRJAroundTag(a', r, j, digits, b);
    ConcatAssoc([a[0]], StripRJ(a'), StripRJ(b));
  }

  /** `RJ<digits>` (either case of R and J) starts at `s[i]`. */
  predicate CodeAt(s: string, i: nat)
  {
    i + 2 < |s| && IsR(s[i]) && IsJ(s[i + 1]) && IsDigit(s[i + 2])
  }

  /** The leftmost position at or after `from` where a code starts. */
  function FindCode(s: string, from: nat): (r: Option<nat>)
    ensures r.Some? ==> from <= r.value && CodeAt(s, r.value)
    ensures r.Some? ==> forall i :: from <= i < r.value ==> !CodeAt(s, i)
    ensures r.None? ==> forall i :: from <= i ==> !CodeAt(s, i)
    decreases |s| - from
  {
    if from + 2 >= |s| then None
    else if CodeAt(s, from) then Some(from)
    else FindCode(s, from + 1)
  }

  /** `folderName.match(/(RJ\d+)/i)[1].toUpperCase()`, or None when nothing matches. */
  function RJCode(s: string): (r: Option<string>)
    ensures r.None? <==> forall i :: 0 <= i ==> !CodeAt(s, i)
    ensures r.Some? ==> exists i: nat :: CodeAt(s, i) && (forall k :: 0 <= k < i ==> !CodeAt(s, k))
                                    && r.value == "RJ" + s[i + 2..i + 2 + DigitRun(s[i + 2..])]
    ensures r.Some? ==> |r.value| >= 3 && r.value[..2] == "RJ" && AllDigits(r.value[2..])
  {
    match FindCode(s, 0)
    case None => None
    case Some(i) =>
      var n := DigitRun(s[i + 2..]);
      var digits := s[i + 2..i + 2 + n];
      assert s[i + 2..][..n] == digits;
      assert s[i + 2..][0] == s[i + 2];
      var code := "RJ" + digits;
      assert code[..2] == "RJ" && code[2..] == digits;
      Some(code)
  }
}

=== FILE: scanner.dfy ===
/**
 * The library walkers of main.js: `scanRecursively` (depth-first, bounded by depth,
 * never entering a folder that is a game) and `scanLibrary` (flat or recursive).
 * The awaited filesystem calls run one after another, so they are ordinary calls here.
 */
module Scanner {
  import opened Common
  import opened Snapshot
  import opened Metadata

  /** The depth `scanLibrary` hands to `scanRecursively`. */
  const MaxDepth: int := 3

  datatype ScanError = RootUnreadable

  /** The games `scanRecursively(path, depth)` returns for the directory `node` found at `path`. */
  function ScanTree(path: string, node: Node, depth: int): seq<GameRecord>
    decreases depth, 2
  {
    if depth <= 0 then []
    else match node.listing
      case Unreadable => []
      case Entries(es) => ScanEntries(path, es, depth)
  }

  /** The games contributed by the entries `es` of the directory at `path`, in order. */
  function ScanEntries(path: string, es: seq<DirEntry>, depth: int): seq<GameRecord>
    requires depth > 0
    decreases depth, 1, |es|
  {
    if es == [] then []
    else ScanEntries(path, es[..|es| - 1], depth) + EntryGames(path, es[|es| - 1], depth)
  }

  /** One entry: nothing for a file, the record of a game folder, or what lies one level further down. */
  function EntryGames(path: string, e: DirEntry, depth: int): seq<GameRecord>
    requires depth > 0
    decreases depth, 0
  {
    match e
    case FileEntry(_) => []
    case SubDir(d) =>
      var full := PathJoin(path, d.name);
      match GameMetadata(full, d.name, d.folder)
      case Some(g) => [g]
      case None => ScanTree(full, d, depth - 1)
  }

  /** The games the flat mode collects from the immediate sub-directories. */
  function FlatEntries(path: string, es: seq<DirEntry>): seq<GameRecord>
  {
    if es == [] then []
    else
      var e := es[|es| - 1];
      FlatEntries(path, es[..|es| - 1]) +
        (if e.SubDir? && GameMetadata(PathJoin(path, e.dir.name), e.dir.name, e.dir.folder).Some?
         then [GameMetadata(PathJoin(path, e.dir.name), e.dir.name, e.dir.folder).value]
         else [])
  }

  /** What `scanLibrary(rootPath)` resolves to, or the error it rejects with. */
  function LibraryScan(rootPath: string, root: Node, recursive: bool): Result<seq<GameRecord>, ScanError>
  {
    if recursive then Ok(ScanTree(rootPath, root, MaxDepth))
    else match root.listing
      case Unreadable => Err(RootUnreadable)
      case Entries(es) => Ok(FlatEntries(rootPath, es))
  }

  lemma ScanEntriesStep(path: string, es: seq<DirEntry>, i: nat, depth: int)
    requires i < |es| && depth > 0
    ensures ScanEntries(path, es[..i + 1], depth) == ScanEntries(path, es[..i], depth) + EntryGames(path, es[i], depth)
  {
    assert es[..i + 1][..i] == es[..i];
  }

  /** `scanRecursively`: a failed listing is swallowed and gives no games. */
  method ScanRecursively(currentPath: string, node: Node, depth: int) returns (games: seq<GameRecord>)
    ensures games == ScanTree(currentPath, node, depth)
    decreases depth
  {
    if depth <= 0 {
      return [];
    }
    games := [];
    if node.listing.Unreadable? {
      return;
    }
    var items := node.listing.entries;
    for i := 0 to |items|
      invariant games == ScanEntries(currentPath, items[..i], depth)
    {
      ScanEntriesStep(currentPath, items, i, depth);
      var dirent := items[i];
      if dirent.SubDir? {
        var fullPath := PathJoin(currentPath, dirent.dir.name);
        var metadata := GetGameMetadata(fullPath, dirent.dir.name, dirent.dir.folder);
        if metadata.Some? {
          games := games + [metadata.value];
        } else {
          var subGames := ScanRecursively(fullPath, dirent.dir, depth - 1);
          games := games + subGames;
        }
      }
    }
    assert items[..|items|] == items;
  }

  /** `scanLibrary`: in flat mode a root that cannot be listed is an error for the caller. */
  method ScanLibrary(rootPath: string, root: Node, recursive: bool) returns (r: Result<seq<GameRecord>, ScanError>)
    ensures r == LibraryScan(rootPath, root, recursive)
  {
    if recursive {
      var games := ScanRecursively(rootPath, root, MaxDepth);
      return Ok(games);
    }
    if root.listing.Unreadable? {
      return Err(RootUnreadable);
    }
    var items := root.listing.entries;
    var games: seq<GameRecord> := [];
    for i := 0 to |items|
      invariant games == FlatEntries(rootPath, items[..i])
    {
      assert items[..i + 1][..i] == items[..i];
      var dir := items[i];
      if dir.SubDir? {
        var fullPath := PathJoin(rootPath, dir.dir.name);
        var metadata := GetGameMetadata(fullPath, dir.dir.name, dir.dir.folder);
        if metadata.Some? {
          games := games + [metadata.value];
        }
      }
    }
    assert items[..|items|] == items;
    r := Ok(games);
  }

  /** A record of a game folder that lies somewhere below the directory `path`. */
  predicate FoundBelow(path: string, g: GameRecord)
  {
    (g.engine == Web || g.engine == Tyrano) && |path| < |g.folderPath| && g.folderPath[..|path| + 1] == path + [Sep]
  }

  lemma BelowChild(path: string, name: string, g: GameRecord)
    requires FoundBelow(PathJoin(path, name), g)
    ensures FoundBelow(path, g)
  {
    var full := PathJoin(path, name);
    assert g.folderPath[..|path| + 1] == g.folderPath[..|full| + 1][..|path| + 1];
    assert full[..|path| + 1] == path + [Sep];
  }

  /** Every record a recursive walk returns is a game (web or Tyrano) inside the directory it started from. */
  lemma {:induction false} ScanTreeBelow(path: string, node: Node, depth: int)
    ensures forall g :: g in ScanTree(path, node, depth) ==> FoundBelow(path, g)
    decreases depth, 2
  {
    if depth > 0 && node.listing.Entries? {
      ScanEntriesBelow(path, node.listing.entries, depth);
    }
  }

  lemma {:induction false} ScanEntriesBelow(path: string, es: seq<DirEntry>, depth: int)
    requires depth > 0
    ensures forall g :: g in ScanEntries(path, es, depth) ==> FoundBelow(path, g)
    decreases depth, 1, |es|
  {
    if es != [] {
      ScanEntriesBelow(path, es[..|es| - 1], depth);
      EntryGamesBelow(path, es[|es| - 1], depth);
    }
  }

  lemma {:induction false} EntryGamesBelow(path: string, e: DirEntry, depth: int)
    requires depth > 0
    ensures forall g :: g in EntryGames(path, e, depth) ==> FoundBelow(path, g)
    decreases depth, 0
  {
    if e.SubDir? {
      var d := e.dir;
      var full := PathJoin(path, d.name);
      match GameMetadata(full, d.name, d.folder)
      case Some(g) =>
        assert full[..|path| + 1] == path + [Sep];
      case None =>
        ScanTreeBelow(full, d, depth - 1);
        forall g | g in ScanTree(full, d, depth - 1) ensures FoundBelow(path, g) {
          BelowChild(path, d.name, g);
        }
    }
  }

  /** Allowing one more level never loses a game. */
  lemma {:induction false} ScanTreeDeeper(path: string, node: Node, depth: int)
    ensures forall g :: g in ScanTree(path, node, depth) ==> g in ScanTree(path, node, depth + 1)
    decreases depth, 2
  {
    if depth > 0 && node.listing.Entries? {
      ScanEntriesDeeper(path, node.listing.entries, depth);
    }
  }

  lemma {:induction false} ScanEntriesDeeper(path: string, es: seq<DirEntry>, depth: int)
    requires depth > 0
    ensures forall g :: g in ScanEntries(path, es, depth) ==> g in ScanEntries(path, es, depth + 1)
    decreases depth, 1, |es|
  {
    if es != [] {
      ScanEntriesDeeper(path, es[..|es| - 1], depth);
      EntryGamesDeeper(path, es[|es| - 1], depth);
    }
  }

  lemma {:induction false} EntryGamesDeeper(path: string, e: DirEntry, depth: int)
    requires depth > 0
    ensures forall g :: g in EntryGames(path, e, depth) ==> g in EntryGames(path, e, depth + 1)
    decreases depth, 0
  {
    if e.SubDir? {
      var full := PathJoin(path, e.dir.name);
      if GameMetadata(full, e.dir.name, e.dir.folder).None? {
        ScanTreeDeeper(full, e.dir, depth - 1);
      }
    }
  }

  /** Every game the flat mode finds, the recursive mode finds too, at any positive depth. */
  lemma {:induction false} FlatWithinRecursive(path: string, es: seq<DirEntry>, depth: int)
    requires depth > 0
    ensures forall g :: g in FlatEntries(path, es) ==> g in ScanEntries(path, es, depth)
    decreases |es|
  {
    if es != [] {
      FlatWithinRecursive(path, es[..|es| - 1], depth);
    }
  }

  /** Whenever the flat scan succeeds, the recursive scan of the same root finds all of its games. */
  lemma FlatScanWithinRecursiveScan(rootPath: string, root: Node)
    requires LibraryScan(rootPath, root, false).Ok?
    ensures forall g :: g in LibraryScan(rootPath, root, false).value ==> g in LibraryScan(rootPath, root, true).value
  {
    FlatWithinRecursive(rootPath, root.listing.entries, MaxDepth);
  }
}

=== FILE: settings.dfy ===
/**
 * The launcher's settings and the reading of the two size fields:
 * JavaScript's `parseInt` followed by `|| default`, so that a field that
 * does not start with a number, or reads as zero, falls back.
 */
module Settings {
  import opened Common
  import opened Text

  datatype AppSettings = AppSettings(webWidth: int, webHeight: int, webFullscreen: bool, recursiveScan: bool)

  const DefaultWidth := 816
  const DefaultHeight := 624

  /** The settings used when nothing has been saved. */
  const Defaults := AppSettings(DefaultWidth, DefaultHeight, false, false)

  /** The value of a letter or digit as a digit of radix up to 36; 36 for any other character. */
  function DigitValue(c: char): (v: nat)
    ensures v <= 36
  {
    if '0' <= c <= '9' then c as int - '0' as int
    else if 'a' <= c <= 'z' then c as int - 'a' as int + 10
    else if 'A' <= c <= 'Z' then c as int - 'A' as int + 10
    else 36
  }

  predicate IsRadixDigit(c: char, radix: nat)
  {
    DigitValue(c) < radix
  }

  predicate AllRadixDigits(s: string, radix: nat)
  {
    forall i :: 0 <= i < |s| ==> IsRadixDigit(s[i], radix)
  }

  /** The length of the longest prefix of `s` made of digits of `radix`. */
  function RunLength(s: string, radix: nat): (n: nat)
    ensures n <= |s| && AllRadixDigits(s[..n], radix)
    ensures n < |s| ==> !IsRadixDigit(s[n], radix)
    decreases |s|
  {
    if s == [] || !IsRadixDigit(s[0], radix) then 0
    else
      var n := 1 + RunLength(s[1..], radix);
      assert s[..n] == [s[0]] + s[1..][..n - 1];
      n
  }

  /** The number the digits spell, most significant first. */
  function Value(digits: string, radix: nat): nat
    decreases |digits|
  {
    if digits == [] then 0
    else Value(digits[..|digits| - 1], radix) * radix + DigitValue(digits[|digits| - 1])
  }

  /** The longest run of digits of `radix` at the start of `z`, if there is one. */
  function ReadRadix(z: string, radix: nat): Option<nat>
  {
    var n := RunLength(z, radix);
    if n == 0 then None else Some(Value(z[..n], radix))
  }

  predicate HexPrefix(u: string)
  {
    |u| >= 2 && u[0] == '0' && (u[1] == 'x' || u[1] == 'X')
  }

  /** The number that starts `u`: `0x`/`0X` selects radix 16, otherwise radix 10. */
  function Magnitude(u: string): Option<nat>
  {
    if HexPrefix(u) then ReadRadix(u[2..], 16) else ReadRadix(u, 10)
  }

  function Signed(m: Option<nat>, negative: bool): Option<int>
  {
    match m
    case None => None
    case Some(v) => Some(if negative then -(v as int) else v as int)
  }

  /** The signed number at the start of `s`. */
  function ReadSigned(s: string): Option<int>
  {
    if s != [] && s[0] == '-' then Signed(Magnitude(s[1..]), true)
    else if s != [] && s[0] == '+' then Signed(Magnitude(s[1..]), false)
    else Signed(Magnitude(s), false)
  }

  /**
   * `parseInt(input)` with no radix: leading white space is skipped and one
   * sign is taken before the number is read. `None` stands for `NaN`.
   */
  function ParseInt(input: string): Option<int>
    decreases |input|
  {
    if input != [] && IsSpace(input[0]) then ParseInt(input[1..]) else ReadSigned(input)
  }

  /** `parseInt` reads the number that follows `trimStart`. */
  lemma {:induction false} ParseIntTrimsStart(input: string)
    ensures ParseInt(input) == ReadSigned(TrimStart(input))
    decreases |input|
  {
    if input != [] && IsSpace(input[0]) {
      ParseIntTrimsStart(input[1..]);
    }
  }

  /** `parsed || fallback`: `NaN` and zero are falsy. */
  function NumberOr(parsed: Option<int>, fallback: int): (r: int)
    ensures r == fallback || parsed == Some(r)
    ensures parsed.Some? && parsed.value != 0 ==> r == parsed.value
    ensures fallback != 0 ==> r != 0
  {
    if parsed.None? || parsed.value == 0 then fallback else parsed.value
  }

  function DigitChar(d: nat): (c: char)
    requires d < 10
    ensures IsDigit(c) && DigitValue(c) == d
  {
    ('0' as int + d) as char
  }

  /** The decimal spelling of a natural number, as a number field holds it. */
  function Decimal(n: nat): (s: string)
    ensures s != [] && AllDigits(s)
    decreases n
  {
    if n < 10 then [DigitChar(n)] else Decimal(n / 10) + [DigitChar(n % 10)]
  }

  lemma {:induction false} DecimalValue(n: nat)
    ensures Value(Decimal(n), 10) == n
    ensures AllRadixDigits(Decimal(n), 10)
    decreases n
  {
    var s := Decimal(n);
    if n >= 10 {
      DecimalValue(n / 10);
      assert s[..|s| - 1] == Decimal(n / 10);
    }
    forall i | 0 <= i < |s| ensures IsRadixDigit(s[i], 10) {
      assert IsDigit(s[i]);
    }
  }

  lemma MagnitudeDigits(d: string)
    requires d != [] && AllRadixDigits(d, 10)
    ensures Magnitude(d) == Some(Value(d, 10))
  {
    assert !HexPrefix(d) by {
      assert |d| >= 2 ==> IsRadixDigit(d[1], 10);
    }
    assert RunLength(d, 10) == |d|;
    assert d[..|d|] == d;
  }

  lemma ReadDigits(d: string, v: nat)
    requires d != [] && AllRadixDigits(d, 10)
    requires Value(d, 10) == v
    ensures ReadSigned(d) == Some(v as int)
    ensures ReadSigned("-" + d) == Some(-(v as int))
  {
    MagnitudeDigits(d);
    assert IsRadixDigit(d[0], 10);
    assert d[0] != '-' && d[0] != '+';
    SignedNegative(d, v);
  }

  lemma SignedNegative(d: string, v: nat)
    requires Magnitude(d) == Some(v)
    ensures ReadSigned("-" + d) == Some(-(v as int))
  {
    var m := "-" + d;
    assert m != [] && m[0] == '-' && m[1..] == d;
  }

  /** A run of decimal digits reads as its value, with or without a minus sign. */
  lemma ParseDigits(d: string, v: nat)
    requires d != [] && AllRadixDigits(d, 10)
    requires Value(d, 10) == v
    ensures ParseInt(d) == Some(v as int)
    ensures ParseInt("-" + d) == Some(-(v as int))
  {
    ReadDigits(d, v);
    assert !IsSpace(d[0]);
    assert ("-" + d)[0] == '-';
  }

  /** Reading back what was written: a decimal number, with or without a minus sign. */
  lemma ParseDecimal(n: nat)
    ensures ParseInt(Decimal(n)) == Some(n as int)
    ensures ParseInt("-" + Decimal(n)) == Some(-(n as int))
  {
    DecimalValue(n);
    ParseDigits(Decimal(n), n);
  }

  /** A positive size typed into the settings is kept as typed. */
  lemma PositiveSizeKept(n: nat, fallback: int)
    requires n > 0
    ensures NumberOr(ParseInt(Decimal(n)), fallback) == n
  {
    ParseDecimal(n);
  }

  /** Text with no digit after the sign reads as `NaN`, so the default is used. */
  lemma NonNumberFallsBack(input: string, fallback: int)
    requires input != [] && !IsSpace(input[0]) && input[0] != '-' && input[0] != '+'
    requires !IsRadixDigit(input[0], 10)
    ensures NumberOr(ParseInt(input), fallback) == fallback
  {
    assert ParseInt(input) == ReadSigned(input);
  }

  lemma ParseEmpty()
    ensures ParseInt("") == None
  {
    assert RunLength("", 10) == 0;
    assert Magnitude("") == None;
    assert ReadSigned("") == None;
  }

  lemma SkipOneSpace(s: string)
    ensures ParseInt([' '] + s) == ParseInt(s)
  {
    assert ([' '] + s)[1..] == s;
  }

  lemma MagnitudeWithUnit()
    ensures Magnitude("42px") == Some(42)
  {
    assert RunLength("42px", 10) == 2 by {
      assert "42px"[1..] == "2px" && "2px"[1..] == "px";
    }
    assert "42px"[..2] == "42";
    assert Value("42", 10) == 42 by { assert "42"[..1] == "4"; assert "4"[..0] == ""; }
  }

  /** Leading white space is skipped and the number stops at the first non-digit. */
  lemma ParseWithUnit()
    ensures ParseInt("  42px") == Some(42)
  {
    SkipOneSpace("42px");
    SkipOneSpace(" 42px");
    MagnitudeWithUnit();
    assert ParseInt("42px") == ReadSigned("42px");
  }

  lemma ParseHex()
    ensures ParseInt("0x1F") == Some(31)
  {
    assert "0x1F"[2..] == "1F";
    assert RunLength("1F", 16) == 2 by { assert "1F"[1..] == "F"; }
    assert "1F"[..2] == "1F";
    assert Value("1F", 16) == 31 by { assert "1F"[..1] == "1"; assert "1"[..0] == ""; }
    assert Magnitude("0x1F") == Some(31);
    assert ReadSigned("0x1F") == Some(31);
    assert ParseInt("0x1F") == ReadSigned("0x1F");
  }

  /** A zero typed into a size field is falsy, so the default comes back. */
  lemma ZeroFallsBack(fallback: int)
    ensures NumberOr(ParseInt("0"), fallback) == fallback
  {
    ParseDecimal(0);
  }
}

=== FILE: snapshot.dfy ===
/**
 * What the launcher can learn about a folder on disk, fixed at the moment it looks:
 * which relative paths `existsSync` reports, what each configuration file parses to,
 * and, for the walkers, the directory tree with the listings `readdir` returns.
 * Relative paths use `/` between their parts ("www/data/System.json").
 */
module Snapshot {
  import opened Common

  /** `System.json` of an RPG Maker project: unreadable or not JSON, or an object with an optional `gameTitle`. */
  datatype SystemJson = SystemUnparsable | SystemData(gameTitle: Option<string>)

  /** The `window` object of `package.json`. */
  datatype WindowConfig = WindowConfig(width: Option<int>, height: Option<int>, fullscreen: Option<bool>)

  /** `package.json`: unreadable or not JSON, or an object with an optional `name` and `window`. */
  datatype PackageJson = PackageUnparsable | PackageData(name: Option<string>, window: Option<WindowConfig>)

  /**
   * One candidate game folder.
   * present:     relative paths that exist (files or directories)
   * systemJson:  the parse result of each `System.json` path; a present path with no entry here does not parse
   * configText:  the text of each `Config.tjs` path that can be read
   * packageJson: the parse result of the root `package.json`, consulted only when that file is present
   */
  datatype Folder = Folder(
    present: set<string>,
    systemJson: map<string, SystemJson>,
    configText: map<string, string>,
    packageJson: PackageJson)

  predicate Has(f: Folder, path: string)
  {
    path in f.present
  }

  function SystemAt(f: Folder, path: string): SystemJson
  {
    if path in f.systemJson then f.systemJson[path] else SystemUnparsable
  }

  /** A directory as the walkers meet it: its own name, its contents as a candidate game, and its listing. */
  datatype Node = Node(name: string, folder: Folder, listing: Listing)

  /** What `readdir` returns: an error, or the entries in directory order. */
  datatype Listing = Unreadable | Entries(entries: seq<DirEntry>)

  datatype DirEntry = FileEntry(fileName: string) | SubDir(dir: Node)

  /** The operating system's path separator; the launcher runs on Windows. */
  const Sep: char := '\\'

  /** A relative path written with the platform separator. */
  function Native(rel: string): (r: string)
    ensures |r| == |rel|
    ensures forall i :: 0 <= i < |rel| ==> r[i] == (if rel[i] == '/' then Sep else rel[i])
  {
    if rel == [] then [] else [if rel[0] == '/' then Sep else rel[0]] + Native(rel[1..])
  }

  /** `path.join(dir, rel)` for a directory without a trailing separator and a plain relative path. */
  function PathJoin(dir: string, rel: string): string
  {
    dir + [Sep] + Native(rel)
  }
}

=== FILE: text.dfy ===
/**
 * The handful of JavaScript string operations the launcher relies on:
 * `trim`, `toLowerCase` (over ASCII), `includes`, `startsWith`, `endsWith`,
 * and `split`/`join` on a one-character separator.
 */
module Text {

  /** JavaScript's WhiteSpace and LineTerminator characters: what `trim` removes and regex `\s` matches. */
  predicate IsSpace(c: char)
  {
    c == '\t' || c == '\n' || c == '\U{000B}' || c == '\U{000C}' || c == '\r' || c == ' '
    || c == '\U{00A0}' || c == '\U{1680}' || ('\U{2000}' <= c <= '\U{200A}')
    || c == '\U{2028}' || c == '\U{2029}' || c == '\U{202F}' || c == '\U{205F}'
    || c == '\U{3000}' || c == '\U{FEFF}'
  }

  /** The characters regex `.` refuses to match when the `s` flag is off. */
  predicate IsLineTerminator(c: char)
  {
    c == '\n' || c == '\r' || c == '\U{2028}' || c == '\U{2029}'
  }

  predicate IsDigit(c: char)
  {
    '0' <= c <= '9'
  }

  predicate AllDigits(s: string)
  {
    forall i :: 0 <= i < |s| ==> IsDigit(s[i])
  }

  predicate AllSpace(s: string)
  {
    forall i :: 0 <= i < |s| ==> IsSpace(s[i])
  }

  /** `s.trimStart()`: drops the leading white space and nothing else (see `TrimStartDropsSpaces`). */
  function TrimStart(s: string): (r: string)
    ensures |r| <= |s| && r == s[|s| - |r|..]
    ensures r != [] ==> !IsSpace(r[0])
  {
    if s != [] && IsSpace(s[0]) then TrimStart(s[1..]) else s
  }

  /** `s.trimEnd()`: drops the trailing white space and nothing else (see `TrimEndDropsSpaces`). */
  function TrimEnd(s: string): (r: string)
    ensures |r| <= |s| && r == s[..|r|]
    ensures r != [] ==> !IsSpace(r[|r| - 1])
  {
    if s != [] && IsSpace(s[|s| - 1]) then TrimEnd(s[..|s| - 1]) else s
  }

  /** What `trimStart` drops is white space. */
  lemma {:induction false} TrimStartDropsSpaces(s: string)
    ensures AllSpace(s[..|s| - |TrimStart(s)|])
    decreases |s|
  {
    if s != [] && IsSpace(s[0]) {
      var k := |s| - |TrimStart(s)|;
      TrimStartDropsSpaces(s[1..]);
      assert s[..k] == [s[0]] + s[1..][..k - 1];
    }
  }

  /** What `trimEnd` drops is white space. */
  lemma {:induction false} TrimEndDropsSpaces(s: string)
    ensures AllSpace(s[|TrimEnd(s)|..])
    decreases |s|
  {
    if s != [] && IsSpace(s[|s| - 1]) {
      var p := s[..|s| - 1];
      var n := |TrimEnd(s)|;
      TrimEndDropsSpaces(p);
      assert s[n..] == p[n..] + [s[|s| - 1]];
    }
  }

  lemma TrimEmptyIff(s: string)
    ensures AllSpace(s) <==> TrimEnd(TrimStart(s)) == []
  {
    var t := TrimStart(s);
    var r := TrimEnd(t);
    if r == [] {
      TrimStartDropsSpaces(s);
      TrimEndDropsSpaces(t);
      assert t[|r|..] == t;
      SpacesTrimAway(t);
      assert s[..|s| - |t|] == s;
    } else {
      assert t[0] == s[|s| - |t|];
      assert !IsSpace(s[|s| - |t|]);
    }
  }

  /** What is left after `trimStart` starts with a non-space, so it is empty when it is all space. */
  lemma SpacesTrimAway(t: string)
    ensures AllSpace(t) && (t != [] ==> !IsSpace(t[0])) ==> t == []
  {
  }

  /** `s.trim()`. */
  function Trim(s: string): (r: string)
    ensures |r| <= |s|
    ensures r != [] ==> !IsSpace(r[0]) && !IsSpace(r[|r| - 1])
    ensures AllSpace(s) <==> r == []
    ensures exists p, q :: s == p + r + q && AllSpace(p) && AllSpace(q)
  {
    var t := TrimStart(s);
    var r := TrimEnd(t);
    assert r != [] ==> r[0] == t[0];
    TrimEmptyIff(s);
    TrimSplits(s);
    r
  }

  /** `trim` drops white space at both ends and nothing else. */
  lemma TrimSplits(s: string)
    ensures exists p, q :: s == p + TrimEnd(TrimStart(s)) + q && AllSpace(p) && AllSpace(q)
  {
    var t := TrimStart(s);
    var r := TrimEnd(t);
    TrimStartDropsSpaces(s);
    TrimEndDropsSpaces(t);
    var p, q := s[..|s| - |t|], t[|r|..];
    assert t == r + q by {
      assert r == t[..|r|];
    }
    assert s == p + t by {
      assert t == s[|s| - |t|..];
    }
    ConcatAssoc(p, r, q);
  }

  function LowerChar(c: char): char
  {
    if 'A' <= c <= 'Z' then (c as int + 32) as char else c
  }

  function UpperChar(c: char): char
  {
    if 'a' <= c <= 'z' then (c as int - 32) as char else c
  }

  /** `s.toLowerCase()`, restricted to the ASCII letters. */
  function Lower(s: string): string
  {
    seq(|s|, i requires 0 <= i < |s| => LowerChar(s[i]))
  }

  /** `s.toUpperCase()`, restricted to the ASCII letters. */
  function Upper(s: string): string
  {
    seq(|s|, i requires 0 <= i < |s| => UpperChar(s[i]))
  }

  predicate StartsWith(s: string, prefix: string)
  {
    prefix <= s
  }

  predicate EndsWith(s: string, suffix: string)
  {
    |suffix| <= |s| && s[|s| - |suffix|..] == suffix
  }

  /** `s.includes(sub)`, computed by sliding over `s`. */
  predicate Contains(s: string, sub: string)
  {
    sub <= s || (s != [] && Contains(s[1..], sub))
  }

  /** `sub` occurs in `s` at position `i`. */
  predicate OccursAt(s: string, sub: string, i: nat)
  {
    i + |sub| <= |s| && s[i..i + |sub|] == sub
  }

  lemma ContainsIffOccurs(s: string, sub: string)
    ensures Contains(s, sub) <==> exists i: nat :: OccursAt(s, sub, i)
  {
    ContainsOccurs(s, sub);
    if exists i: nat :: OccursAt(s, sub, i) {
      var i: nat :| OccursAt(s, sub, i);
      OccursContains(s, sub, i);
    }
  }

  lemma {:induction false} ContainsOccurs(s: string, sub: string)
    ensures Contains(s, sub) ==> exists i: nat :: OccursAt(s, sub, i)
  {
    if sub <= s {
      assert OccursAt(s, sub, 0);
    } else if s != [] && Contains(s[1..], sub) {
      ContainsOccurs(s[1..], sub);
      var i: nat :| OccursAt(s[1..], sub, i);
      assert s[i + 1..i + 1 + |sub|] == s[1..][i..i + |sub|];
      assert OccursAt(s, sub, i + 1);
    }
  }

  lemma {:induction false} OccursContains(s: string, sub: string, i: nat)
    requires OccursAt(s, sub, i)
    ensures Contains(s, sub)
    decreases i
  {
    if i == 0 {
      assert sub <= s;
    } else {
      assert s[1..][i - 1..i - 1 + |sub|] == s[i..i + |sub|];
      OccursContains(s[1..], sub, i - 1);
    }
  }

  lemma ConcatAssoc(x: string, y: string, z: string)
    ensures x + y + z == x + (y + z)
  {
  }

  /** `s.split(d)` for a one-character separator `d`: never empty, and no piece holds `d`. */
  function Split(s: string, d: char): (r: seq<string>)
    ensures |r| >= 1
    ensures forall k :: 0 <= k < |r| ==> d !in r[k]
  {
    if s == [] then [""]
    else
      var rest := Split(s[1..], d);
      if s[0] == d then [""] + rest else [[s[0]] + rest[0]] + rest[1..]
  }

  /** `parts.join(d)`. */
  function Join(parts: seq<string>, d: char): string
  {
    if |parts| == 0 then ""
    else if |parts| == 1 then parts[0]
    else parts[0] + [d] + Join(parts[1..], d)
  }

  lemma {:induction false} JoinConsHead(c: char, p: string, ps: seq<string>, d: char)
    ensures Join([[c] + p] + ps, d) == [c] + Join([p] + ps, d)
  {
    assert ([[c] + p] + ps)[1..] == ps;
    assert ([p] + ps)[1..] == ps;
  }

  /** Splitting and joining again on the same separator gives back the string. */
  lemma {:induction false} JoinSplit(s: string, d: char)
    ensures Join(Split(s, d), d) == s
  {
    if s != [] {
      var rest := Split(s[1..], d);
      JoinSplit(s[1..], d);
      if s[0] == d {
        assert ([""] + rest)[1..] == rest;
        assert Join([""] + rest, d) == "" + [d] + Join(rest, d);
      } else {
        assert rest == [rest[0]] + rest[1..];
        JoinConsHead(s[0], rest[0], rest[1..], d);
      }
    }
  }

  lemma {:induction false} SplitPrefix(p: string, rest: string, d: char)
    requires d !in p
    ensures Split(p + rest, d) == [p + Split(rest, d)[0]] + Split(rest, d)[1..]
    decreases |p|
  {
    if p != [] {
      assert (p + rest)[1..] == p[1..] + rest;
      SplitPrefix(p[1..], rest, d);
      assert [p[0]] + (p[1..] + Split(rest, d)[0]) == p + Split(rest, d)[0];
    } else {
      var r := Split(rest, d);
      assert p + rest == rest && p + r[0] == r[0];
      assert r == [r[0]] + r[1..];
    }
  }

  /** Joining pieces free of the separator and splitting again gives back the pieces. */
  lemma {:induction false} SplitJoin(parts: seq<string>, d: char)
    requires |parts| >= 1
    requires forall k :: 0 <= k < |parts| ==> d !in parts[k]
    ensures Split(Join(parts, d), d) == parts
    decreases |parts|
  {
    var x := parts[0];
    if |parts| == 1 {
      SplitPrefix(x, "", d);
      assert x + "" == x;
    } else {
      var ys := parts[1..];
      SplitJoin(ys, d);
      var t := [d] + Join(ys, d);
      assert t[0] == d && t[1..] == Join(ys, d);
      assert Split(t, d) == [""] + ys;
      assert Join(parts, d) == x + t;
      SplitPrefix(x, t, d);
      assert x + "" == x;
      assert [x] + ys == parts;
    }
  }

  /** Appending a piece appends the separator and the piece. */
  lemma {:induction false} JoinSnoc(parts: seq<string>, x: string, d: char)
    requires |parts| >= 1
    ensures Join(parts + [x], d) == Join(parts, d) + [d] + x
    decreases |parts|
  {
    if |parts| == 1 {
      assert (parts + [x])[1..] == [x];
    } else {
      assert (parts + [x])[1..] == parts[1..] + [x];
      JoinSnoc(parts[1..], x, d);
    }
  }

  /** What `trim` leaves is a piece of the original. */
  lemma TrimContained(s: string)
    ensures Contains(s, Trim(s))
  {
    var t := TrimStart(s);
    var r := TrimEnd(t);
    var k := |s| - |t|;
    assert s[k..k + |r|] == r;
    assert OccursAt(s, r, k);
    ContainsIffOccurs(s, r);
  }

  lemma LowerUpper(s: string)
    ensures Lower(Upper(s)) == Lower(s)
  {
  }
}

=== FILE: tyrano_config.dfy ===
/**
 * The title lookup in a TyranoBuilder `Config.tjs`:
 * `content.match(/;System\.title\s*=\s*"(.*?)";/)`, written out as a scanner.
 * The first position where the whole pattern matches wins, and the capture is the
 * shortest run of characters other than line terminators that is followed by `";`.
 */
module TyranoConfig {
  import opened Common
  import opened Text

  const Key: string := ";System.title"

  /** The index just past the white space starting at `i` (greedy `\s*`). */
  function SkipSpace(s: string, i: nat): (j: nat)
    requires i <= |s|
    ensures i <= j <= |s|
    ensures forall k :: i <= k < j ==> IsSpace(s[k])
    ensures j < |s| ==> !IsSpace(s[j])
    decreases |s| - i
  {
    if i < |s| && IsSpace(s[i]) then SkipSpace(s, i + 1) else i
  }

  /** No line terminator in `s[a..b]`. */
  predicate NoTerminator(s: string, a: nat, b: nat)
    requires a <= b <= |s|
  {
    forall k :: a <= k < b ==> !IsLineTerminator(s[k])
  }

  /** Only white space in `s[a..b]`. */
  predicate SpacesBetween(s: string, a: nat, b: nat)
    requires a <= b <= |s|
  {
    forall k :: a <= k < b ==> IsSpace(s[k])
  }

  /** The closing `";` of the pattern stands at `k`. */
  predicate CloserAt(s: string, k: nat)
  {
    k + 2 <= |s| && s[k] == '"' && s[k + 1] == ';'
  }

  /** Where the lazy `(.*?)` that starts at `i` stops: the first `";` reached before any line terminator. */
  function CaptureEnd(s: string, i: nat): (r: Option<nat>)
    requires i <= |s|
    ensures r.Some? ==> i <= r.value && CloserAt(s, r.value) && NoTerminator(s, i, r.value)
    ensures r.Some? ==> forall k :: i <= k < r.value ==> !CloserAt(s, k)
    decreases |s| - i
  {
    if CloserAt(s, i) then Some(i)
    else if i < |s| && !IsLineTerminator(s[i]) then CaptureEnd(s, i + 1)
    else None
  }

  /** The capture fails only when no `";` is reached before a line terminator or the end. */
  lemma {:induction false} CaptureEndNone(s: string, i: nat)
    requires i <= |s|
    ensures CaptureEnd(s, i).None? ==> forall k :: i <= k <= |s| && NoTerminator(s, i, k) ==> !CloserAt(s, k)
    decreases |s| - i
  {
    if !CloserAt(s, i) && i < |s| && !IsLineTerminator(s[i]) {
      CaptureEndNone(s, i + 1);
      assert forall k :: i + 1 <= k <= |s| && NoTerminator(s, i, k) ==> NoTerminator(s, i + 1, k);
    }
  }

  /**
   * The pattern matches at `i` with the `=` at `j`, the opening quote at `q` and the closing `";` at `e`:
   * `;System.title`, white space, `=`, white space, `"`, then the shortest run of characters other than
   * line terminators that reaches `";`. The capture is `s[q + 1..e]`.
   */
  predicate Shape(s: string, i: nat, j: nat, q: nat, e: nat)
  {
    i <= |s| && Key <= s[i..] && i + |Key| <= j < q && q + 1 <= e && e + 2 <= |s|
    && SpacesBetween(s, i + |Key|, j) && s[j] == '='
    && SpacesBetween(s, j + 1, q) && s[q] == '"'
    && NoTerminator(s, q + 1, e) && CloserAt(s, e)
    && forall k :: q + 1 <= k < e ==> !CloserAt(s, k)
  }

  /** The capture when the pattern matches starting exactly at `i`. */
  function MatchAt(s: string, i: nat): (r: Option<string>)
    requires i <= |s|
    ensures r.Some? ==> Key <= s[i..]
    ensures r.Some? ==> forall k :: 0 <= k < |r.value| ==> !IsLineTerminator(r.value[k])
  {
    if !(Key <= s[i..]) then None
    else
      var j := SkipSpace(s, i + |Key|);
      if j == |s| || s[j] != '=' then None
      else
        var q := SkipSpace(s, j + 1);
        if q == |s| || s[q] != '"' then None
        else
          match CaptureEnd(s, q + 1)
          case None => None
          case Some(e) =>
            var c := s[q + 1..e];
            assert forall k :: 0 <= k < |c| ==> c[k] == s[q + 1 + k];
            Some(c)
  }

  /** Wherever `MatchAt` finds a match, the pattern's structure is present, with that capture. */
  lemma MatchAtShape(s: string, i: nat)
    requires i <= |s|
    ensures MatchAt(s, i).Some? ==> exists j: nat, q: nat, e: nat :: Shape(s, i, j, q, e) && MatchAt(s, i).value == s[q + 1..e]
  {
    if MatchAt(s, i).Some? {
      var j := SkipSpace(s, i + |Key|);
      var q := SkipSpace(s, j + 1);
      var e := CaptureEnd(s, q + 1).value;
      assert Shape(s, i, j, q, e);
    }
  }

  /** No match starts at any position in `[a, b)`. */
  predicate NoMatchBetween(s: string, a: nat, b: nat)
    requires b <= |s| + 1
  {
    forall m :: a <= m < b ==> MatchAt(s, m).None?
  }

  /** The capture of the leftmost match at or after `i`. */
  function MatchFrom(s: string, i: nat): Option<string>
    requires i <= |s|
    decreases |s| - i
  {
    match MatchAt(s, i)
    case Some(c) => Some(c)
    case None => if i == |s| then None else MatchFrom(s, i + 1)
  }

  /**
   * The search returns the match at the first position `k` where one starts,
   * and nothing when none does (`k` is then one past the last position).
   */
  lemma {:induction false} MatchFromLeftmost(s: string, i: nat) returns (k: nat)
    requires i <= |s|
    ensures i <= k <= |s| + 1 && NoMatchBetween(s, i, k)
    ensures k <= |s| ==> MatchAt(s, k).Some? && MatchFrom(s, i) == MatchAt(s, k)
    ensures k == |s| + 1 ==> MatchFrom(s, i).None?
    decreases |s| - i
  {
    if MatchAt(s, i).Some? {
      k := i;
    } else if i == |s| {
      k := |s| + 1;
    } else {
      k := MatchFromLeftmost(s, i + 1);
      assert MatchFrom(s, i) == MatchFrom(s, i + 1);
    }
  }

  /**
   * `content.match(...)`: the capture group of the match that starts leftmost,
   * or None exactly when the pattern matches nowhere.
   */
  function MatchTitle(content: string): (r: Option<string>)
    ensures r.Some? ==> Contains(content, Key)
    ensures r.Some? ==> exists k: nat :: k <= |content| && MatchAt(content, k) == r && NoMatchBetween(content, 0, k)
    ensures r.None? <==> NoMatchBetween(content, 0, |content| + 1)
  {
    MatchTitleLeftmost(content);
    MatchFrom(content, 0)
  }

  lemma MatchTitleLeftmost(content: string)
    ensures MatchFrom(content, 0).Some? ==> Contains(content, Key)
    ensures MatchFrom(content, 0).Some? ==>
      exists k: nat :: k <= |content| && MatchAt(content, k) == MatchFrom(content, 0) && NoMatchBetween(content, 0, k)
    ensures MatchFrom(content, 0).None? <==> NoMatchBetween(content, 0, |content| + 1)
  {
    var k := MatchFromLeftmost(content, 0);
    if k <= |content| {
      KeyAtMatch(content, k);
      ContainsIffOccurs(content, Key);
      assert !NoMatchBetween(content, 0, |content| + 1);
    }
  }

  lemma KeyAtMatch(content: string, k: nat)
    requires k <= |content| && MatchAt(content, k).Some?
    ensures OccursAt(content, Key, k)
  {
    assert content[k..][..|Key|] == content[k..k + |Key|];
  }

  /** The line the TyranoBuilder editor writes, `;System.title = "<title>";`. */
  function TitleLine(title: string): string
  {
    Key + " = \"" + title + "\";"
  }

  /** A run of white space that ends at a character other than white space is exactly what `\s*` skips. */
  lemma {:induction false} SkipSpaceTo(s: string, a: nat, b: nat)
    requires a <= b < |s| && SpacesBetween(s, a, b) && !IsSpace(s[b])
    ensures SkipSpace(s, a) == b
    decreases b - a
  {
    if a < b {
      SkipSpaceTo(s, a + 1, b);
    }
  }

  /** The lazy capture stops at the first `";` when no line terminator comes before it. */
  lemma {:induction false} CaptureEndAt(s: string, a: nat, e: nat)
    requires a <= e && CloserAt(s, e) && NoTerminator(s, a, e)
    requires forall k :: a <= k < e ==> !CloserAt(s, k)
    ensures CaptureEnd(s, a) == Some(e)
    decreases e - a
  {
    if a < e {
      assert !CloserAt(s, a) && !IsLineTerminator(s[a]);
      CaptureEndAt(s, a + 1, e);
    }
  }

  /** Wherever the pattern's structure is present, `MatchAt` finds it, with that capture. */
  lemma ShapeMatches(s: string, i: nat, j: nat, q: nat, e: nat)
    requires Shape(s, i, j, q, e)
    ensures MatchAt(s, i) == Some(s[q + 1..e])
  {
    SkipSpaceTo(s, i + |Key|, j);
    SkipSpaceTo(s, j + 1, q);
    CaptureEndAt(s, q + 1, e);
    assert Key <= s[i..];
    assert SkipSpace(s, i + |Key|) == j && s[j] == '=';
    assert SkipSpace(s, j + 1) == q && s[q] == '"';
  }

  /** Skipping positions where no match starts leaves the leftmost match unchanged. */
  lemma {:induction false} MatchFromPast(s: string, i: nat, k: nat)
    requires i <= k <= |s| && NoMatchBetween(s, i, k)
    ensures MatchFrom(s, i) == MatchFrom(s, k)
    decreases k - i
  {
    if i < k {
      MatchFromStep(s, i, k);
      MatchFromPast(s, i + 1, k);
    }
  }

  lemma MatchFromStep(s: string, i: nat, k: nat)
    requires i < k <= |s| && NoMatchBetween(s, i, k)
    ensures MatchFrom(s, i) == MatchFrom(s, i + 1)
    ensures NoMatchBetween(s, i + 1, k)
  {
    assert MatchAt(s, i).None?;
  }

  /**
   * No match starts inside a prefix free of `;System.title` when what follows it is empty or starts
   * with `;`: an occurrence of the key cannot straddle the boundary, as its only `;` is its first character.
   */
  lemma KeyFreePrefix(before: string, rest: string)
    requires !Contains(before, Key)
    requires rest == [] || rest[0] == ';'
    ensures NoMatchBetween(before + rest, 0, |before|)
  {
    forall m | 0 <= m < |before|
      ensures MatchAt(before + rest, m).None?
    {
      KeyNotInPrefix(before, rest, m);
    }
  }

  lemma KeyNotInPrefix(before: string, rest: string, m: nat)
    requires !Contains(before, Key)
    requires rest == [] || rest[0] == ';'
    requires m < |before|
    ensures !(Key <= (before + rest)[m..])
  {
    if m + |Key| <= |before| {
      KeyNotInside(before, rest, m);
    } else if m + |Key| <= |before + rest| {
      KeyNotAcross(before, rest, m);
    }
  }

  lemma KeyNotInside(before: string, rest: string, m: nat)
    requires !Contains(before, Key)
    requires m + |Key| <= |before|
    ensures !(Key <= (before + rest)[m..])
  {
    ContainsIffOccurs(before, Key);
    NotPrefixInside(before, rest, Key, m);
  }

  /** A string that does not occur at `m` of `before` does not start `(before + rest)[m..]` either, when it fits in `before`. */
  lemma NotPrefixInside(before: string, rest: string, sub: string, m: nat)
    requires m + |sub| <= |before| && !OccursAt(before, sub, m)
    ensures !(sub <= (before + rest)[m..])
  {
    assert (before + rest)[m..][..|sub|] == before[m..m + |sub|];
  }

  lemma KeyNotAcross(before: string, rest: string, m: nat)
    requires rest == [] || rest[0] == ';'
    requires m < |before| < m + |Key| <= |before + rest|
    ensures !(Key <= (before + rest)[m..])
  {
    var s := before + rest;
    var d := |before| - m;
    KeyHasOneSemicolon(d);
    assert s[m..][d] == ';';
  }

  /** The key's only `;` is its first character. */
  lemma KeyHasOneSemicolon(d: nat)
    requires 0 < d < |Key|
    ensures Key[d] != ';'
  {
    assert d in {1, 2, 3, 4, 5, 6, 7, 8, 9, 10, 11, 12};
  }

  /** A title that survives the capture whole: no line terminator and no `";` inside it. */
  predicate Capturable(title: string)
  {
    (forall k :: 0 <= k < |title| ==> !IsLineTerminator(title[k]))
    && forall k :: 0 <= k < |title| - 1 ==> !(title[k] == '"' && title[k + 1] == ';')
  }

  /** The characters of a title line, by position. */
  lemma TitleLineShape(title: string)
    ensures |TitleLine(title)| == |Key| + |title| + 6
    ensures TitleLine(title)[..|Key|] == Key
    ensures TitleLine(title)[|Key|] == ' ' && TitleLine(title)[|Key| + 1] == '='
    ensures TitleLine(title)[|Key| + 2] == ' ' && TitleLine(title)[|Key| + 3] == '"'
    ensures TitleLine(title)[|Key| + 4..|Key| + 4 + |title|] == title
    ensures TitleLine(title)[|Key| + 4 + |title|] == '"' && TitleLine(title)[|Key| + 5 + |title|] == ';'
  {
  }

  /** A title line standing at `i` matches there, and its capture is the title. */
  lemma MatchAtTitleLine(s: string, i: nat, title: string)
    requires i + |TitleLine(title)| <= |s| && s[i..i + |TitleLine(title)|] == TitleLine(title)
    requires Capturable(title)
    ensures MatchAt(s, i) == Some(title)
  {
    TitleLineAt(s, i, title);
    var j := i + |Key| + 1;
    var q := j + 2;
    var e := q + 1 + |title|;
    assert forall k :: q + 1 <= k < e ==> s[k] == title[k - q - 1];
    assert Shape(s, i, j, q, e);
    ShapeMatches(s, i, j, q, e);
  }

  /** The characters of a title line standing at `i` of `s`, by position. */
  lemma TitleLineAt(s: string, i: nat, title: string)
    requires i + |TitleLine(title)| <= |s| && s[i..i + |TitleLine(title)|] == TitleLine(title)
    ensures i + |Key| + |title| + 6 <= |s| && Key <= s[i..]
    ensures s[i + |Key|] == ' ' && s[i + |Key| + 1] == '=' && s[i + |Key| + 2] == ' ' && s[i + |Key| + 3] == '"'
    ensures s[i + |Key| + 4..i + |Key| + 4 + |title|] == title
    ensures s[i + |Key| + 4 + |title|] == '"' && s[i + |Key| + 5 + |title|] == ';'
  {
    var line := TitleLine(title);
    TitleLineShape(title);
    var n := |Key|;
    assert forall m :: 0 <= m < |line| ==> s[i + m] == line[m];
    assert s[i..][..n] == line[..n];
    assert s[i + n + 4..i + n + 4 + |title|] == line[n + 4..n + 4 + |title|];
  }

  /**
   * When no match starts before the title line, the file's title is the line's title,
   * whatever follows the line.
   */
  lemma TitleLineRoundTrip(before: string, title: string, after: string)
    requires NoMatchBetween(before + TitleLine(title) + after, 0, |before|)
    requires Capturable(title)
    ensures MatchTitle(before + TitleLine(title) + after) == Some(title)
  {
    var line := TitleLine(title);
    var s := before + line + after;
    var i := |before|;
    MatchFromPast(s, 0, i);
    assert s[i..i + |line|] == line;
    MatchAtTitleLine(s, i, title);
  }

  /** In particular, a title line is found when no `;System.title` comes before it. */
  lemma FirstTitleLineWins(before: string, title: string, after: string)
    requires !Contains(before, Key)
    requires Capturable(title)
    ensures MatchTitle(before + TitleLine(title) + after) == Some(title)
  {
    TitleLineShape(title);
    KeyFreePrefix(before, TitleLine(title) + after);
    assert before + TitleLine(title) + after == before + (TitleLine(title) + after);
    TitleLineRoundTrip(before, title, after);
  }
}
